=== FILE: README.md ===
# FreshID editor core in Dafny

A Dafny model of the logic of the FreshID ID-photo editor, a React app. A
user uploads a portrait and positions and zooms it inside a frame shaped like
a standard ID-photo size. They can ask a remote image model to replace the
background, change the outfit or retouch the face. Then they download a
print-ready PNG of exactly the size's pixel dimensions at 300 DPI.

The model covers these parts:

- **Catalog** (`catalog.dfy`, from `constants.ts`): the six ID sizes with
  their millimetre and 300 DPI pixel dimensions, the background colours, the
  beauty levels and the outfits. It proves that each size's pixel dimensions
  are the `Math.round` of its millimetre dimensions at 300 DPI.
- **Geometry** (`geometry.dfy`, from `App.tsx` and `components/Workspace.tsx`):
  - the display frame (500 px high, with the size's aspect ratio);
  - the "cover" auto-fit with its 1.05 margin;
  - the preview `<img>`'s CSS transform, written as a composition of
    similarity maps;
  - the rectangle the download hands to `drawImage`.

  The central theorem, `ExportMatchesPreview`, says that the export rectangle
  is the on-screen rectangle scaled by one uniform ratio: what you see is
  what you export.
- **Workspace** (`workspace.dfy`, from `components/Workspace.tsx`): the
  Idle/Dragging state machine and the modifier-gated wheel zoom with its
  0.05 floor. Event sequences are folded over a session.
- **Gemini** (`gemini.dfy`, from `services/geminiService.ts`):
  - `split(',')` and `extractBase64`, including the data-URL round trip;
  - the request sent and the reading of the response parts into a data URL
    or one of the typed errors;
  - the missing-key failure;
  - the instruction builders of the three AI tools.
- **Editor** (`editor.dfy`, from `App.tsx`): the state record
  `{image, originalImage, history, processing}` and its transitions. These
  are the bounded undo history, upload, restoring the original, starting and
  finishing an AI edit, and the download (canvas, draw rectangle, file name).
- **Common** (`common.dfy`): `Option`/`Result` and the JavaScript string
  behaviours the code relies on. These are the truthiness of `string | null`,
  `includes` and `toLowerCase`.

Arithmetic is over Dafny's `real`, so the lemmas state the exact behaviour
that the JavaScript floating-point numbers approximate. Inputs the code
cannot see in advance become parameters:

- the decoded image's natural width and height;
- the file picked;
- the API key;
- the clock reading used in the file name;
- the network. It is a function from the request sent to the response
  received.

Three behaviours of the code shape the contracts:

- The code never checks for zero natural dimensions or a non-positive
  scale, so both are preconditions of the geometry. `RunKeepsScaleBounds`
  shows that interaction keeps a positive scale positive.
- The 0.05 scale floor applies only when zooming. Auto-fit of a large image
  gives a smaller scale (`AutoFitMayUndercutFloor`), and only a later zoom
  lifts it.
- The catalog's pixel dimensions are exactly the `Math.round` of the
  millimetre dimensions at 300 DPI (`CatalogMatches300Dpi`).

## Model

| member | source | states |
|---|---|---|
| Catalog.Round | constants.ts:3 | the half-up rounding (as `Math.round`) that turns the commented formula (mm / 25.4) × 300 into the hard-coded integers: the unique integer n with n − 0.5 ≤ x < n + 0.5 |
| Catalog.CatalogMatches300Dpi | constants.ts:4-59 | every size's px width and height equal round(mm / 25.4 × 300) |
| Catalog.CatalogSizesArePortrait | constants.ts:4-59 | every size has positive px dimensions with width < height, so the aspect divisions are defined |
| Catalog.CatalogIdsDistinct | constants.ts:4-59 | the size ids are pairwise distinct |
| Catalog.CatalogShape | constants.ts:4-13 | six sizes; entry 0, the default selection, is '1inch' at 295 × 413 |
| Catalog.ColorArgument | App.tsx:263 | the gradient entry passes 'gradient'; any other entry passes its name lower-cased character by character. Partner: `GradientEntryUnique` |
| Catalog.GradientEntryUnique | constants.ts:61-67 | exactly one background entry has value 'gradient', and exactly that entry yields the colour argument 'gradient'; the others yield 'white', 'blue', 'red' and 'gray' |
| Catalog.NoneLevelRestores | constants.ts:76-80 | a 'none' beauty level exists, and it is the only level with an empty prompt |
| Geometry.Aspect | App.tsx:40 | a valid size's width/height ratio is positive |
| Geometry.DisplayDimensions | App.tsx:39-45 | the frame is 500 high, positive in width, with width/height equal to widthPx/heightPx; it depends on the size only |
| Geometry.AutoFit | App.tsx:53-72 | auto-fit of positive natural dimensions gives a positive scale and resets the position to the centre |
| Geometry.AspectComparison | App.tsx:53-68 | "image relatively wider than the frame" holds exactly when fitting by height needs the larger scale |
| Geometry.AutoFitIsCoverScale | App.tsx:53-71 | the auto-fit scale is 1.05 × max(frameW/natW, frameH/natH); the image covers the frame with the margin on both axes, with equality on one axis |
| Geometry.AutoFitIsMinimal | App.tsx:56-71 | every scale that covers the frame with the margin is at least the auto-fit scale |
| Geometry.PreviewTransform | components/Workspace.tsx:85-91 | the CSS transform chain is a uniform scale by `scale` that carries the element's centre to the frame centre plus `position`. Partner: `PreviewIsCentred` |
| Geometry.PreviewRect | components/Workspace.tsx:85-91 | the rectangle the preview shows is natural size × scale. Partners: `PreviewIsCentred`, `ExportMatchesPreview` |
| Geometry.PreviewIsCentred | components/Workspace.tsx:85-91 | the CSS transform chain puts the image centre at frame centre + position, at natural size × scale |
| Geometry.ExportRatio | App.tsx:167 | the preview-to-output ratio is positive |
| Geometry.ExportRect | App.tsx:167-187 | the draw rectangle has positive width and height |
| Geometry.FrameMapsOntoCanvas | App.tsx:155-167 | scaling the display frame by heightPx/500 gives exactly the widthPx × heightPx canvas, so one ratio serves both axes |
| Geometry.ExportMatchesPreview | App.tsx:167-187 | the canvas draw rectangle equals the on-screen image rectangle scaled by the export ratio |
| Geometry.ExportScalesWithResolution | App.tsx:167-187 | multiplying the size's px dimensions by m leaves the display frame unchanged and multiplies every draw coordinate by m |
| Geometry.AutoFitFillsCanvas | App.tsx:70-71 | with the auto-fit transform the exported image overlaps all four canvas edges, so no white shows |
| Geometry.WorkedExample | App.tsx:167-177 | size 295 × 413 and image 800 × 1000: scale 0.525, ratio 0.826, rectangle (−25.96, −10.325, 346.92, 433.65) |
| Workspace.Zoomed | components/Workspace.tsx:46-47 | the zoomed scale is at least 0.05, and is either the floor or scale − 0.001 × deltaY |
| Workspace.Step | components/Workspace.tsx:25-49 | mouse-down starts a drag and emits nothing; mouse-up and mouse-leave end it and emit nothing; moves and wheel events keep the drag state; any emitted scale is the old one or at least the floor |
| Workspace.PressThenMoveBack | components/Workspace.tsx:25-35 | pressing and moving back to the press point reproduces the press-time transform |
| Workspace.DragFollowsPointer | components/Workspace.tsx:30-36 | while dragging, after any non-empty run of moves the position is the last pointer minus the anchor and the scale is unchanged |
| Workspace.DragTranslates | components/Workspace.tsx:25-35 | a press followed by moves translates the image by the pointer's displacement |
| Workspace.MoveWithoutPressIsIgnored | components/Workspace.tsx:30-40 | a move while not dragging emits nothing; after mouse-up or mouse-leave a move changes nothing |
| Workspace.WheelZoom | components/Workspace.tsx:42-50 | a wheel event emits an update exactly when Ctrl or Meta is held, with scale max(0.05, scale − 0.001 × deltaY) and the same position |
| Workspace.ZoomRespectsFloor | components/Workspace.tsx:46-47 | a zoom is exactly linear in deltaY above the floor and clamps to 0.05 below it |
| Workspace.RunKeepsScaleBounds | components/Workspace.tsx:42-49 | no event sequence takes a scale ≥ 0.05 below 0.05, or a positive scale to a non-positive one |
| Workspace.ZoomLiftsToFloor | components/Workspace.tsx:43-48 | after any sequence containing a modifier zoom, the scale is at least 0.05, whatever it started at |
| Workspace.AutoFitMayUndercutFloor | components/Workspace.tsx:47 | auto-fit of a 100000 × 100000 image into the default frame gives a scale below the 0.05 zoom floor |
| Gemini.Split | services/geminiService.ts:15 | `split` gives at least one piece, no piece contains the separator, and joining the pieces gives back the input |
| Gemini.SplitJoin | services/geminiService.ts:15 | splitting the join of separator-free pieces gives back those pieces |
| Gemini.ExtractBase64 | services/geminiService.ts:14-16 | the result is the whole input or a non-empty comma-free piece of it. Partners: `ExtractBase64Segment`, `DataUrlRoundTrip` |
| Gemini.ExtractBase64WithoutComma | services/geminiService.ts:14-16 | comma-free input is returned unchanged |
| Gemini.ExtractBase64Segment | services/geminiService.ts:14-16 | the result is the text between the first comma and the second comma or the end if it is non-empty, otherwise the whole input |
| Gemini.DataUrlRoundTrip | services/geminiService.ts:14-16 | extractBase64("data:" + M + ";base64," + D) = D for comma-free M and non-empty comma-free D |
| Gemini.BuildRequest | services/geminiService.ts:26-43 | the image is always declared image/png, and the prompt starts with the instruction and ends with the fixed suffix. Partners: `PromptCarriesInstruction`, `ResultFeedsNextRequest` |
| Gemini.PromptCarriesInstruction | services/geminiService.ts:26 | the prompt sent is the instruction followed by the fixed suffix, and the instruction can be read back from it |
| Gemini.FirstWhere | services/geminiService.ts:48-54 | returns the least index whose part matches, or none when no part matches |
| Gemini.Interpret | services/geminiService.ts:45-59 | a failure is one of the three response errors and never the missing key or a thrown error; "No content generated" occurs exactly when the parts are missing. Partners: `InterpretSuccess`, `InterpretFailures` |
| Gemini.InterpretSuccess | services/geminiService.ts:48-52 | the response succeeds exactly when some part has non-empty inline data; the result is the data URL of the first such part, with the mime type defaulting to image/png |
| Gemini.InterpretFailures | services/geminiService.ts:45-59 | absent parts give "No content generated"; with no image part, the first non-empty text gives "AI Generation failed: " + text, else "No image data found in response" |
| Gemini.ResultFeedsNextRequest | services/geminiService.ts:50 | the image of a returned data URL is sent back byte for byte in the next request |
| Gemini.DataUrlFeedsRequest | services/geminiService.ts:14-16 | the request built from any data URL "data:M;base64,D" with comma-free M and non-empty comma-free D, such as an uploaded file's (App.tsx:93-99), carries exactly D |
| Gemini.MissingKeyFails | services/geminiService.ts:7-8 | with no API key (null or empty) the edit fails before any request, whatever the network would answer, with a message containing "API Key" |
| Gemini.EditImage | services/geminiService.ts:18-64 | the edit fails with the missing-key error exactly when the key is null or empty; with a key, an answered request is read by `Interpret`. Partners: `MissingKeyFails`, `ThrownErrorPassesThrough`, `AnsweredEditUsesFirstImage` |
| Gemini.AnsweredEditUsesFirstImage | services/geminiService.ts:45-52 | with a key, an answered request whose first image part is at position i yields exactly that part's data URL, whatever follows it |
| Gemini.ThrownErrorPassesThrough | services/geminiService.ts:60-63 | with a key, an error thrown by the client library is rethrown with its own message, never as the missing-key error |
| Gemini.GradientPhraseExactly | services/geminiService.ts:67 | the blue-gradient phrase is used exactly for the colour 'gradient'; any other colour asks for "a solid <color> background", with exactly that colour read back between "a solid " and " background" |
| Gemini.BackgroundPhrase | services/geminiService.ts:67 | the gradient phrase is chosen exactly for 'gradient'; otherwise the colour sits between "a solid " and " background". Partners: `GradientPhraseExactly`, `BackgroundPhraseInjective` |
| Gemini.BackgroundPhraseInjective | services/geminiService.ts:67 | two colours ask for the same background exactly when they are equal |
| Gemini.RemoveBackgroundInstruction | services/geminiService.ts:66-72 | the background phrase is read back between the fixed lead "Extract the person and place them on " and tail ". Ensure clean edges and hair details.". Partner: `ColourReachesModel` |
| Gemini.ChangeOutfitInstruction | services/geminiService.ts:74-79 | the outfit description is read back between the fixed lead "Change the person's clothing to a " and the fixed tail. Partner: `OutfitReachesModel` |
| Gemini.ApplyBeautyInstruction | services/geminiService.ts:81-86 | the level prompt is read back between the fixed lead "Enhance this ID photo with " and the fixed tail. Partner: `BeautyReachesModel` |
| Gemini.RemoveBackground | services/geminiService.ts:66-72 | fails with the missing-key error exactly when the key is null or empty. Partner: `ColourReachesModel` |
| Gemini.ChangeOutfit | services/geminiService.ts:74-79 | fails with the missing-key error exactly when the key is null or empty. Partner: `OutfitReachesModel` |
| Gemini.ApplyBeauty | services/geminiService.ts:81-86 | fails with the missing-key error exactly when the key is null or empty. Partner: `BeautyReachesModel` |
| Gemini.InstructionMatters | services/geminiService.ts:26-43 | with a key, two different instructions give different requests, so some network answer makes the two edits differ |
| Gemini.ColourInPrompt | services/geminiService.ts:66-72 | the prompt sent contains the colour argument, including the word 'gradient' for the gradient |
| Gemini.ColourReachesModel | services/geminiService.ts:66-72 | different colours give different instructions, the prompt sent contains the colour, and with a key some answer makes the two results differ |
| Gemini.OutfitReachesModel | services/geminiService.ts:74-79 | different descriptions give different instructions, the prompt sent contains the description, and with a key some answer makes the two results differ |
| Gemini.BeautyReachesModel | services/geminiService.ts:81-86 | different level prompts give different instructions, the prompt sent contains the level prompt, and with a key some answer makes the two results differ |
| Gemini.CatalogButtonsDiffer | constants.ts:68-79 | the four outfit buttons send four different instructions, and the three level prompts give pairwise different instructions; only the two levels other than 'none' are ever sent (App.tsx:137-140) |
| Gemini.GradientButtonRequestsGradient | App.tsx:263 | of the background buttons, exactly the gradient entry requests the blue-gradient background |
| Editor.LastN | App.tsx:77 | `slice(-n)` keeps min(n, length) elements |
| Editor.AddToHistory | App.tsx:76-79 | after an add the history has 1 to 5 entries, ends with the previous image (or the new image when there was none), and the new image is shown |
| Editor.AddIsBoundedPush | App.tsx:77 | an add is a push of the previous image followed by dropping all but the newest five entries |
| Editor.Undo | App.tsx:81-87 | on a non-empty history undo shows the last entry and removes only that entry; on an empty history nothing changes |
| Editor.AddThenUndo | App.tsx:76-87 | add then undo restores the shown image, and restores the history exactly when it held at most four entries |
| Editor.TwoAddsThenUndo | App.tsx:76-87 | two adds then undo show the first result again, and the history is back to its state after the first add exactly when it started with at most three entries |
| Editor.AddAllKeepsNewest | App.tsx:76-79 | after a run of edits the last result is shown, and the history is the newest five of the old history, the previously shown image and every result but the last |
| Editor.HistoryAfterManyEdits | App.tsx:77 | after five or more edits the history is exactly the last five images those edits replaced |
| Editor.OldHistoryEvicted | App.tsx:77 | after five or more edits the history no longer depends on the history before them |
| Editor.Upload | App.tsx:89-101 | a picked file becomes both image and original and empties the history; with no file nothing changes |
| Editor.UploadClearsUndo | App.tsx:93-97 | undo right after an upload changes nothing |
| Editor.RestoreOriginal | App.tsx:137-139 | the original is shown again if there is one; history, original and status are untouched |
| Common.Contains | App.tsx:114 | an occurring string is no longer than the string it occurs in, and the empty string occurs everywhere. Partners: `ContainsIff`, `ContainsOnlyOwnChars` |
| Common.ContainsAt | App.tsx:114 | a contained string occurs at some position: the containing string is a + sub + b |
| Common.ContainsIff | App.tsx:114 | `includes` holds exactly when the string can be written as a + sub + b |
| Common.ReadBack | services/geminiService.ts:66-86 | a template string lead + x + tail has the fixed lead and tail, and x is read back between them |
| Common.ContainsOnlyOwnChars | App.tsx:114 | every character of an occurring string occurs in the containing string |
| Common.ContainsAfter | App.tsx:114 | a string occurs in any string built around it |
| Common.ToLower | App.tsx:263 | the result has the input's length and is its ASCII lower-casing character by character |
| Editor.ErrorMessage | App.tsx:114-117 | a message containing "API Key" becomes 'API Key Missing (Offline Mode)'; an empty message becomes 'Processing failed'; any other is shown as is |
| Editor.BeginEdit | App.tsx:104-105 | image, original and history are never touched; without an image nothing changes, otherwise the status shows the loading message. Partner: `LoadingStateIsTransient` |
| Editor.LoadingStateIsTransient | App.tsx:103-118 | once an edit completes, the state is the same whichever loading message was shown, and the status is no longer Processing, for every outcome |
| Editor.FinishEdit | App.tsx:107-118 | the status becomes Success or Error according to the outcome; a result is shown with at most five history entries; a failure keeps image and history; the original is never touched. Partners: `SucceededEditPushesHistory`, `FailedEditChangesOnlyStatus` |
| Editor.ProcessWithAI | App.tsx:103-120 | the original is never touched, a history within five entries stays within five, and with an image the edit ends in Success or Error. Partners: `NoImageNoEdit`, `SucceededEditPushesHistory`, `FailedEditChangesOnlyStatus` |
| Editor.HandleRemoveBg | App.tsx:122-127 | without an image nothing changes; otherwise the gateway is asked with the background-removal instruction for the colour, and its outcome completes the edit in Success or Error; the original is kept. Partners: `RemoveBgShowsModelImage`, `MissingKeyMeansOffline` |
| Editor.RemoveBgShowsModelImage | App.tsx:122-127 | with an image and a key, an answer to the colour's background-removal request shows its first image part, pushes the replaced image onto the five-entry history, keeps the original and reports 'Done!' |
| Editor.HandleOutfitChange | App.tsx:129-134 | without an image nothing changes; otherwise the gateway is asked with the outfit instruction for the outfit's prompt, and its outcome completes the edit in Success or Error; the original is kept. Partners: `OutfitChangeShowsModelImage`, `NoImageNoEdit` |
| Editor.OutfitChangeShowsModelImage | App.tsx:129-134 | with an image and a key, an answer to the outfit's request shows its first image part, pushes the replaced image onto the five-entry history, keeps the original and reports 'Done!' |
| Editor.HandleBeauty | App.tsx:136-145 | the 'none' level is exactly restoring the original, keeping history and status; any other level with an image asks the gateway with the retouch instruction for the level's prompt and ends in Success or Error; the original is kept. Partners: `BeautyShowsModelImage`, `BeautyNoneRestoresOriginal` |
| Editor.BeautyShowsModelImage | App.tsx:141-144 | with an image and a key, an answer to a non-'none' level's retouch request shows its first image part, pushes the replaced image onto the five-entry history, keeps the original and reports 'Done!' |
| Editor.NoImageNoEdit | App.tsx:104 | without an image an AI tool changes nothing |
| Editor.FailedEditChangesOnlyStatus | App.tsx:112-118 | a failed edit leaves image, original and history unchanged and sets status Error with the mapped message |
| Editor.SucceededEditPushesHistory | App.tsx:108-110 | a successful edit shows the result, pushes the replaced image as a bounded push, keeps the original and sets status Success 'Done!' |
| Editor.BeautyNoneRestoresOriginal | App.tsx:136-140 | the 'none' beauty level shows the original without touching history or status, whatever the network would answer |
| Editor.GatewayMessagesShownAsIs | App.tsx:114-117 | "No content generated" and "No image data found in response" are shown as they are, not as offline mode |
| Editor.RefusalShownAsIs | App.tsx:114-117 | a refusal whose text has no 'K' is shown as "AI Generation failed: " + text, not as offline mode |
| Editor.MissingKeyMeansOffline | App.tsx:114-117 | without an API key, removing the background leaves image, original and history unchanged and shows 'API Key Missing (Offline Mode)' |
| Editor.ActionsKeepInvariants | App.tsx:76-101 | under any sequence of actions the history stays within five entries, and without an upload the original image never changes |
| Editor.NothingHappensBeforeUpload | App.tsx:26-30 | from the startup state, any sequence of undos, restores and AI edits without an upload leaves the editor in its startup state |
| Editor.Decimal | App.tsx:196 | the timestamp is rendered as a non-empty digit string that reads back as the same number |
| Editor.DownloadName | App.tsx:196 | the name starts with 'fresh-id-' + size id + '-' and ends with '.png'. Partner: `DownloadNameParts` |
| Editor.DownloadNameParts | App.tsx:196 | the file name is 'fresh-id-' + size id + '-' + digits + '.png', and the digits read back as the timestamp |
| Editor.HandleDownload | App.tsx:147-199 | given a 2D canvas context, a download exists exactly when an image is shown; the canvas is widthPx × heightPx on a white fill, and the file is named by `DownloadName`. Partner: `DownloadIsPreviewEnlarged` |
| Editor.DownloadIsPreviewEnlarged | App.tsx:147-193 | given a 2D canvas context, a download exists exactly when an image is shown; its canvas is the display frame scaled by the export ratio, and the image is drawn where the preview shows it, scaled by the same ratio |

## Left out

- React rendering, JSX and styling (App.tsx:202-374, components/Workspace.tsx:52-111 apart from the image transform). This is UI. It includes the "New" button (App.tsx:315), which clears the image but not the history, and the `disabled` states of the buttons.
- Browser APIs: image decoding, `FileReader`, the canvas `fillRect`, `drawImage` and `toDataURL` calls, image smoothing, and the link click. This includes `getContext('2d')` returning null, which ends the download early (App.tsx:152); the model assumes a context is available. These are I/O. The natural dimensions, the picked file and the clock reading are parameters. The download is modelled as the numbers and strings handed to these APIs.
- The `GoogleGenAI` client and `generateContent`. This is a foreign network library. It is a function from request to response. The optional chain `response.candidates?.[0]?.content?.parts` is modelled as an optional sequence of parts, and the `modelName` parameter always takes its default.
- The `setTimeout` reset of the status to Idle (App.tsx:111) and `console.error` logging. These are timing and logging.
- Async ordering between decoding, network calls and state updates, including races between overlapping AI edits. The code has no guard against them. `ProcessWithAI` treats the start and the completion of an edit as one step, and `BeginEdit` shows the intermediate state.
- React's effect dependency tracking, which decides when auto-fit re-runs after a change of image or size, and `setSelectedSize`. The size is a parameter of every geometry function.
- IEEE-754 rounding of JavaScript numbers. All geometry is exact `real` arithmetic.
- A thrown value without a `message` property. Every error carries a string message, and the empty message stands for the `'Processing failed'` fallback.
- Common.ToLower: lower-cases ASCII letters only, not all of Unicode, because the catalog's colour names are ASCII.
- Editor.LastN: states the length of the kept suffix but not its elements. The kept entries are stated outright by `HistoryAfterManyEdits`: after five or more edits, the last five images those edits replaced.
- `types.ts` `ToolType` and `GeneratedImage`. They are unused declarations.
- The CSS `class` of the background colours and the `Scale: N%` readout (components/Workspace.tsx:107). These are presentation.
- `e.preventDefault()` in the wheel handler (components/Workspace.tsx:44). This is a browser side effect.

=== FILE: catalog.dfy ===
/** The static catalogs of `constants.ts`: the ID-photo sizes with their
    300 DPI pixel dimensions, the background colours and the beauty levels
    and outfits offered to the AI editor. */
module Catalog {
  import opened Common

  /** One physical ID-photo size (`IdPhotoSize` in `types.ts`). */
  datatype IdPhotoSize = IdPhotoSize(
    id: string,
    name: string,
    widthMm: real,
    heightMm: real,
    widthPx: int,
    heightPx: int,
    description: string)

  /** Print resolution in dots per inch, and millimetres per inch. */
  const Dpi: real := 300.0
  const MmPerInch: real := 25.4

  /** `Math.round`: the nearest integer, halves rounded towards +infinity. */
  function Round(x: real): (n: int)
    ensures n as real - 0.5 <= x < n as real + 0.5
  {
    (x + 0.5).Floor
  }

  /** The pixel count of a length in millimetres at 300 DPI: `round(mm / 25.4 * 300)`. */
  function MmToPx(mm: real): int {
    Round(mm / MmPerInch * Dpi)
  }

  /** A size whose pixel dimensions agree with its millimetre dimensions at 300 DPI. */
  predicate ConsistentAt300Dpi(s: IdPhotoSize) {
    s.widthPx == MmToPx(s.widthMm) && s.heightPx == MmToPx(s.heightMm)
  }

  /** A size usable as a frame: both pixel dimensions positive, so the
      aspect-ratio divisions of the editor are defined. */
  predicate ValidSize(s: IdPhotoSize) {
    s.widthPx > 0 && s.heightPx > 0
  }

  /** `ID_SIZES`. */
  const IdSizes: seq<IdPhotoSize> := [
    IdPhotoSize("1inch", "1 Inch (\U{4E00}\U{5BF8})", 25.0, 35.0, 295, 413,
                "Common for Resumes, Driver License"),
    IdPhotoSize("2inch", "2 Inch (\U{4E8C}\U{5BF8})", 35.0, 49.0, 413, 579,
                "Visas, Some Certificates"),
    IdPhotoSize("small2inch", "Small 2 Inch (\U{5C0F}\U{4E8C}\U{5BF8})", 33.0, 48.0, 390, 567,
                "Passport, Generic ID"),
    IdPhotoSize("idcard_cn", "China ID (\U{8EAB}\U{4EFD}\U{8BC1})", 26.0, 32.0, 307, 378,
                "National ID Card"),
    IdPhotoSize("teacher", "Teacher Cert (\U{6559}\U{8D44})", 25.0, 35.0, 295, 413,
                "Teacher Qualification"),
    IdPhotoSize("student", "Student ID (\U{5B66}\U{751F}\U{8BC1})", 25.0, 35.0, 295, 413,
                "Standard Student ID")
  ]

  /** The size selected when the editor starts (`ID_SIZES[0]`). */
  const DefaultSize: IdPhotoSize := IdSizes[0]

  /** Every catalog size is consistent at 300 DPI. */
  lemma CatalogMatches300Dpi()
    ensures forall i :: 0 <= i < |IdSizes| ==> ConsistentAt300Dpi(IdSizes[i])
  {
    assert MmToPx(25.0) == 295 && MmToPx(35.0) == 413;
    assert MmToPx(49.0) == 579;
    assert MmToPx(33.0) == 390 && MmToPx(48.0) == 567;
    assert MmToPx(26.0) == 307 && MmToPx(32.0) == 378;
  }

  /** Every catalog size is a portrait frame with positive dimensions. */
  lemma CatalogSizesArePortrait()
    ensures forall i :: 0 <= i < |IdSizes| ==>
      ValidSize(IdSizes[i]) && IdSizes[i].widthPx < IdSizes[i].heightPx
  {
  }

  /** Entry ids are pairwise distinct, so an id identifies its size. */
  lemma CatalogIdsDistinct()
    ensures forall i, j :: 0 <= i < j < |IdSizes| ==> IdSizes[i].id != IdSizes[j].id
  {
  }

  /** Six sizes; the default is the one-inch 295 x 413 frame. */
  lemma CatalogShape()
    ensures |IdSizes| == 6
    ensures DefaultSize.id == "1inch"
    ensures DefaultSize.widthPx == 295 && DefaultSize.heightPx == 413
    ensures ValidSize(DefaultSize)
  {
  }

  /** One entry of `BG_COLORS` (its CSS class is left out). */
  datatype BgColor = BgColor(name: string, value: string)

  /** The value that marks the gradient background. */
  const GradientValue: string := "gradient"

  /** `BG_COLORS`. */
  const BgColors: seq<BgColor> := [
    BgColor("White", "#FFFFFF"),
    BgColor("Blue", "#438EDB"),
    BgColor("Red", "#D91F26"),
    BgColor("Gray", "#F1F5F9"),
    BgColor("Gradient", GradientValue)
  ]

  /** The colour argument the background buttons pass to background removal:
      `"gradient"` for the gradient entry, the lower-cased name otherwise. */
  function ColorArgument(bg: BgColor): (arg: string)
    ensures bg.value == GradientValue ==> arg == GradientValue
    ensures bg.value != GradientValue ==>
      |arg| == |bg.name| && forall i :: 0 <= i < |arg| ==> arg[i] == LowerChar(bg.name[i])
  {
    if bg.value == GradientValue then GradientValue else ToLower(bg.name)
  }

  /** Exactly one background entry is the gradient, and exactly that entry
      produces the `"gradient"` colour argument; the solid entries pass their
      lower-cased names. */
  lemma GradientEntryUnique()
    ensures forall i :: 0 <= i < |BgColors| ==>
      (BgColors[i].value == GradientValue <==> i == 4)
    ensures forall i :: 0 <= i < |BgColors| ==>
      (ColorArgument(BgColors[i]) == GradientValue <==> BgColors[i].value == GradientValue)
    ensures [ColorArgument(BgColors[0]), ColorArgument(BgColors[1]),
             ColorArgument(BgColors[2]), ColorArgument(BgColors[3])]
      == ["white", "blue", "red", "gray"]
  {
    assert ColorArgument(BgColors[0]) == "white";
    assert ColorArgument(BgColors[1]) == "blue";
    assert ColorArgument(BgColors[2]) == "red";
    assert ColorArgument(BgColors[3]) == "gray";
  }

  /** One entry of `BEAUTY_LEVELS` or of `OUTFIT_OPTIONS`: an id, a button
      caption and the phrase spliced into the AI instruction. */
  datatype PromptOption = PromptOption(id: string, caption: string, prompt: string)

  /** The id of the beauty level that restores the original upload. */
  const NoneLevelId: string := "none"

  /** `BEAUTY_LEVELS`. */
  const BeautyLevels: seq<PromptOption> := [
    PromptOption(NoneLevelId, "Original", ""),
    PromptOption("light", "Light Retouch", "subtle skin smoothing, natural lighting correction"),
    PromptOption("pro", "Professional", "studio lighting, clear skin, professional retouching, sharp focus")
  ]

  /** `OUTFIT_OPTIONS`. */
  const OutfitOptions: seq<PromptOption> := [
    PromptOption("suit_black_m", "Men's Black Suit", "black formal business suit, white shirt, dark tie"),
    PromptOption("suit_navy_m", "Men's Navy Suit", "navy blue formal business suit, white shirt"),
    PromptOption("suit_black_f", "Women's Blazer", "black formal business blazer, white blouse"),
    PromptOption("shirt_white", "White Shirt", "crisp white formal collared shirt")
  ]

  /** The 'none' level is present, has an empty prompt, and is the only level
      whose prompt is empty. */
  lemma NoneLevelRestores()
    ensures exists i :: 0 <= i < |BeautyLevels| && BeautyLevels[i].id == NoneLevelId
    ensures forall i :: 0 <= i < |BeautyLevels| ==>
      (BeautyLevels[i].id == NoneLevelId <==> BeautyLevels[i].prompt == "")
  {
    assert BeautyLevels[0].id == NoneLevelId;
  }
}

=== FILE: common.dfy ===
/** Shared vocabulary for the editor model: optional values, results, and the
    few JavaScript string behaviours the editor relies on (truthiness of a
    `string | null`, `String.prototype.includes`, `toLowerCase`). */
module Common {

  /** A value that may be absent (`null` / `undefined` in the editor). */
  datatype Option<+T> = None | Some(value: T) {
    /** The value, or `default` when absent. */
    function GetOr(default: T): T {
      match this
      case Some(v) => v
      case None => default
    }
  }

  /** The outcome of an operation that can fail with an error of type `E`. */
  datatype Result<+R, +E> = Success(value: R) | Failure(error: E)

  /** JavaScript truthiness of a `string | null`: both `null` and `""` are falsy. */
  predicate Present(o: Option<string>) {
    o.Some? && o.value != ""
  }

  /** The JavaScript expression `o || fallback` on a `string | null`. */
  function OrElse(o: Option<string>, fallback: string): string {
    if Present(o) then o.value else fallback
  }

  predicate IsPrefix(p: string, s: string) {
    |p| <= |s| && s[..|p|] == p
  }

  predicate IsSuffix(p: string, s: string) {
    |p| <= |s| && s[|s| - |p|..] == p
  }

  /** `s.includes(sub)`: `sub` occurs somewhere in `s`. */
  predicate Contains(s: string, sub: string)
    ensures Contains(s, sub) ==> |sub| <= |s|
    ensures sub == [] ==> Contains(s, sub)
    decreases |s|
  {
    IsPrefix(sub, s) || (|s| > 0 && Contains(s[1..], sub))
  }

  /** Every character of an occurring substring occurs in the string, so a
      string lacking one of `sub`'s characters cannot contain `sub`. */
  lemma {:induction false} ContainsOnlyOwnChars(s: string, sub: string, c: char)
    requires Contains(s, sub)
    requires c in sub
    ensures c in s
    decreases |s|
  {
    if IsPrefix(sub, s) {
      var k :| 0 <= k < |sub| && sub[k] == c;
      assert s[k] == c;
    } else {
      ContainsOnlyOwnChars(s[1..], sub, c);
      var k :| 0 <= k < |s[1..]| && s[1..][k] == c;
      assert s[k + 1] == c;
    }
  }

  /** A string contains any string it is built around. */
  lemma {:induction false} ContainsAfter(a: string, p: string, b: string)
    ensures Contains(a + p + b, p)
    decreases |a|
  {
    if a == [] {
      assert a + p + b == p + b;
      assert (p + b)[..|p|] == p;
    } else {
      ContainsAfter(a[1..], p, b);
      assert (a + p + b)[1..] == a[1..] + p + b;
    }
  }

  /** Conversely, a contained string occurs at some position: the containing
      string is built around it. */
  lemma {:induction false} ContainsAt(s: string, sub: string)
    requires Contains(s, sub)
    ensures exists a, b :: s == a + sub + b
    decreases |s|
  {
    if IsPrefix(sub, s) {
      assert s == [] + sub + s[|sub|..];
    } else {
      ContainsAt(s[1..], sub);
      var a, b :| s[1..] == a + sub + b;
      assert s == [s[0]] + a + sub + b;
    }
  }

  /** `includes` holds exactly when the string is built around `sub`. */
  lemma ContainsIff(s: string, sub: string)
    ensures Contains(s, sub) <==> exists a, b :: s == a + sub + b
  {
    if Contains(s, sub) {
      ContainsAt(s, sub);
    }
    if exists a, b :: s == a + sub + b {
      var a, b :| s == a + sub + b;
      ContainsAfter(a, sub, b);
    }
  }

  /** A string written as `${lead}${x}${tail}` gives `x` back between the
      fixed lead and tail. */
  lemma ReadBack(lead: string, x: string, tail: string)
    ensures var s := lead + x + tail;
      && |s| == |lead| + |x| + |tail|
      && IsPrefix(lead, s) && IsSuffix(tail, s)
      && s[|lead|..|s| - |tail|] == x
  {
    var s := lead + x + tail;
    assert s[..|lead|] == lead;
    assert s[|s| - |tail|..] == tail;
    assert s[|lead|..|s| - |tail|] == x;
  }

  /** ASCII `toLowerCase` of one character. */
  function LowerChar(c: char): char {
    if 'A' <= c <= 'Z' then (c as int + 32) as char else c
  }

  /** `toLowerCase`, restricted to the ASCII letters the catalog uses. */
  function ToLower(s: string): (r: string)
    ensures |r| == |s|
    ensures forall i :: 0 <= i < |s| ==> r[i] == LowerChar(s[i])
  {
    if s == [] then [] else [LowerChar(s[0])] + ToLower(s[1..])
  }
}

=== FILE: editor.dfy ===
/** The editor's state and its transitions (`App.tsx`): the current image, the
    original upload, the bounded undo history and the processing status, and
    what uploading, undoing, restoring the original, finishing an AI edit and
    downloading do to them. */
module Editor {
  import opened Common
  import opened Catalog
  import opened Geometry
  import Gemini

  datatype ProcessingStatus = StatusIdle | StatusProcessing | StatusSuccess | StatusError

  /** `ProcessingState`: a status with an optional message for the header badge. */
  datatype ProcessingState = ProcessingState(status: ProcessingStatus, message: Option<string>)

  /** Images are data URLs; `history` holds earlier images, most recent last. */
  datatype EditorState = EditorState(
    image: Option<string>,
    originalImage: Option<string>,
    history: seq<string>,
    processing: ProcessingState)

  /** The state at startup: no image, no original, no history, idle. */
  const Initial: EditorState := EditorState(None, None, [], ProcessingState(StatusIdle, None))

  /** The most history entries the editor keeps. */
  const HistoryCapacity: nat := 5

  /** `s.slice(-n)` for `n > 0`: the last `n` elements, or all of them if fewer. */
  function LastN(s: seq<string>, n: nat): (r: seq<string>)
    requires n > 0
    ensures |r| == if |s| <= n then |s| else n
  {
    if |s| <= n then s else s[|s| - n..]
  }

  /** Taking the last `n` before appending does not change the last `n` after. */
  lemma LastNAbsorbs(a: seq<string>, b: seq<string>, n: nat)
    requires n > 0
    ensures LastN(LastN(a, n) + b, n) == LastN(a + b, n)
  {
    if |a| > n {
      var a' := a[|a| - n..];
      assert a == a[..|a| - n] + a';
      assert a + b == a[..|a| - n] + (a' + b);
    }
  }

  /** `addToHistory`: push the current image (or, with none, the new one)
      onto the history, keeping only the newest entries, and show the new image. */
  function AddToHistory(s: EditorState, newImage: string): (t: EditorState)
    ensures 1 <= |t.history| <= HistoryCapacity
    ensures t.image == Some(newImage)
    ensures t.history[|t.history| - 1] == OrElse(s.image, newImage)
    ensures t.originalImage == s.originalImage && t.processing == s.processing
  {
    s.(history := LastN(s.history, HistoryCapacity - 1) + [OrElse(s.image, newImage)],
       image := Some(newImage))
  }

  /** The history is a bounded stack: adding pushes the previous image and then
      drops the oldest entries beyond the capacity. */
  lemma AddIsBoundedPush(s: EditorState, newImage: string)
    ensures AddToHistory(s, newImage).history
      == LastN(s.history + [OrElse(s.image, newImage)], HistoryCapacity)
  {
    var p := OrElse(s.image, newImage);
    var h := s.history;
    if |h| > HistoryCapacity - 1 {
      assert (h + [p])[|h + [p]| - HistoryCapacity..] == h[|h| - (HistoryCapacity - 1)..] + [p];
    }
  }

  /** `handleUndo`: show the newest history entry and drop it; with an empty
      history nothing happens. */
  function Undo(s: EditorState): (t: EditorState)
    ensures |s.history| == 0 ==> t == s
    ensures |s.history| > 0 ==>
      && t.image == Some(s.history[|s.history| - 1])
      && t.history + [s.history[|s.history| - 1]] == s.history
    ensures t.originalImage == s.originalImage && t.processing == s.processing
  {
    if |s.history| > 0 then
      s.(image := Some(s.history[|s.history| - 1]), history := s.history[..|s.history| - 1])
    else s
  }

  /** Undo right after an add brings back the image that was shown, and brings
      back the history exactly when nothing was evicted, that is when it held
      at most four entries. */
  lemma AddThenUndo(s: EditorState, newImage: string)
    requires Present(s.image)
    ensures Undo(AddToHistory(s, newImage)).image == s.image
    ensures Undo(AddToHistory(s, newImage)).history == s.history
      <==> |s.history| <= HistoryCapacity - 1
  {
    var t := AddToHistory(s, newImage);
    assert t.history[..|t.history| - 1] == LastN(s.history, HistoryCapacity - 1);
    if |s.history| > HistoryCapacity - 1 {
      assert |LastN(s.history, HistoryCapacity - 1)| < |s.history|;
    }
  }

  /** Two edits and an undo: the first edit's result is shown again, and the
      history is back to what it held after the first edit exactly when the
      second push evicted nothing. */
  lemma TwoAddsThenUndo(s: EditorState, a: string, b: string)
    requires Present(s.image) && a != ""
    ensures var t := Undo(AddToHistory(AddToHistory(s, a), b));
      && t.image == Some(a)
      && (t.history == AddToHistory(s, a).history <==> |s.history| <= HistoryCapacity - 2)
  {
    var t1 := AddToHistory(s, a);
    AddThenUndo(t1, b);
    assert |t1.history| == if |s.history| <= HistoryCapacity - 1 then |s.history| + 1 else HistoryCapacity;
  }

  /** A sequence of edit results, each added in turn. */
  function AddAll(s: EditorState, images: seq<string>): EditorState
    decreases |images|
  {
    if images == [] then s else AddAll(AddToHistory(s, images[0]), images[1..])
  }

  /** The history arithmetic of one step of `AddAll`. */
  lemma PushThenRest(h: seq<string>, v: string, images: seq<string>)
    requires |images| > 1
    ensures LastN(LastN(h + [v], HistoryCapacity) + [images[0]] + images[1..][..|images| - 2], HistoryCapacity)
      == LastN(h + [v] + images[..|images| - 1], HistoryCapacity)
  {
    var tail := [images[0]] + images[1..][..|images| - 2];
    assert tail == images[..|images| - 1];
    LastNAbsorbs(h + [v], tail, HistoryCapacity);
    assert LastN(h + [v], HistoryCapacity) + [images[0]] + images[1..][..|images| - 2]
      == LastN(h + [v], HistoryCapacity) + tail;
    assert h + [v] + images[..|images| - 1] == (h + [v]) + tail;
  }

  /** After a run of edits the last result is shown, and the history is the
      newest five of: the old history, the image shown before the run, and
      every result but the last. */
  lemma {:induction false} AddAllKeepsNewest(s: EditorState, images: seq<string>)
    requires Present(s.image) && |images| > 0
    requires forall i :: 0 <= i < |images| ==> images[i] != ""
    ensures AddAll(s, images).image == Some(images[|images| - 1])
    ensures AddAll(s, images).history
      == LastN(s.history + [s.image.value] + images[..|images| - 1], HistoryCapacity)
    decreases |images|
  {
    var t := AddToHistory(s, images[0]);
    AddIsBoundedPush(s, images[0]);
    assert AddAll(s, images) == AddAll(t, images[1..]);
    if |images| == 1 {
      assert images[..0] == [];
      assert s.history + [s.image.value] + [] == s.history + [s.image.value];
    } else {
      AddAllKeepsNewest(t, images[1..]);
      PushThenRest(s.history, s.image.value, images);
    }
  }

  /** Whatever precedes at least `n` elements is cut off by `LastN`. */
  lemma LastNForgetsPrefix(a: seq<string>, r: seq<string>, n: nat)
    requires n > 0 && |r| >= n
    ensures LastN(a + r, n) == LastN(r, n)
  {
    if |r| > n || |a| > 0 {
      assert (a + r)[|a + r| - n..] == r[|r| - n..];
    }
  }

  /** After five or more edits the history consists only of images replaced
      during those edits: the last five of them, oldest first. */
  lemma HistoryAfterManyEdits(s: EditorState, images: seq<string>)
    requires Present(s.image)
    requires forall i :: 0 <= i < |images| ==> images[i] != ""
    requires |images| >= HistoryCapacity
    ensures var replaced := [s.image.value] + images[..|images| - 1];
      AddAll(s, images).history == replaced[|replaced| - HistoryCapacity..]
  {
    var replaced := [s.image.value] + images[..|images| - 1];
    var full := s.history + [s.image.value] + images[..|images| - 1];
    assert AddAll(s, images).history == LastN(full, HistoryCapacity) by {
      AddAllKeepsNewest(s, images);
    }
    assert LastN(full, HistoryCapacity) == LastN(replaced, HistoryCapacity) by {
      assert full == s.history + replaced;
      LastNForgetsPrefix(s.history, replaced, HistoryCapacity);
    }
  }

  /** Once five or more edits have been made, no trace of the earlier
      history remains: two states showing the same image end with the same
      history, whatever histories they started with. */
  lemma OldHistoryEvicted(s: EditorState, other: EditorState, images: seq<string>)
    requires Present(s.image) && other.image == s.image
    requires forall i :: 0 <= i < |images| ==> images[i] != ""
    requires |images| >= HistoryCapacity
    ensures AddAll(s, images).history == AddAll(other, images).history
  {
    HistoryAfterManyEdits(s, images);
    HistoryAfterManyEdits(other, images);
  }

  /** `handleFileChange`: a picked file becomes both the shown and the
      original image and the history is cleared; no file, no change. */
  function Upload(s: EditorState, file: Option<string>): (t: EditorState)
    ensures file.None? ==> t == s
    ensures file.Some? ==> t.image == file && t.originalImage == file && t.history == []
    ensures t.processing == s.processing
  {
    if file.Some? then s.(image := file, originalImage := file, history := []) else s
  }

  /** After an upload there is nothing to undo. */
  lemma UploadClearsUndo(s: EditorState, file: string)
    ensures Undo(Upload(s, Some(file))) == Upload(s, Some(file))
  {
  }

  /** The beauty level 'none': show the original upload again, if there is
      one, without touching the history. */
  function RestoreOriginal(s: EditorState): (t: EditorState)
    ensures Present(s.originalImage) ==> t.image == s.originalImage
    ensures !Present(s.originalImage) ==> t == s
    ensures t.history == s.history && t.originalImage == s.originalImage && t.processing == s.processing
  {
    if Present(s.originalImage) then s.(image := s.originalImage) else s
  }

  /** The status message shown for a successful edit. */
  const DoneMessage: string := "Done!"

  /** The status message shown when the API key is missing. */
  const OfflineMessage: string := "API Key Missing (Offline Mode)"

  /** The status message shown when an error has no message. */
  const FallbackErrorMessage: string := "Processing failed"

  /** The status message for a failed edit: offline mode whenever the error
      message mentions the API key, otherwise the message itself. */
  function ErrorMessage(message: string): (m: string)
    ensures Contains(message, Gemini.ApiKeyMarker) ==> m == OfflineMessage
    ensures !Contains(message, Gemini.ApiKeyMarker) && message != "" ==> m == message
    ensures message == "" ==> m == FallbackErrorMessage
  {
    if Contains(message, Gemini.ApiKeyMarker) then OfflineMessage
    else if message != "" then message
    else FallbackErrorMessage
  }

  /** The start of `processWithAI`: with no image nothing happens; otherwise
      the status shows the tool's loading message. */
  function BeginEdit(s: EditorState, loadingMessage: string): (t: EditorState)
    ensures t.image == s.image && t.originalImage == s.originalImage && t.history == s.history
    ensures !Present(s.image) ==> t == s
    ensures Present(s.image) ==> t == s.(processing := ProcessingState(StatusProcessing, Some(loadingMessage)))
  {
    if Present(s.image) then s.(processing := ProcessingState(StatusProcessing, Some(loadingMessage))) else s
  }

  /** The end of `processWithAI`: a result is added to the history and shown;
      an error only changes the status. */
  function FinishEdit(s: EditorState, outcome: Result<string, Gemini.EditError>): (t: EditorState)
    ensures t.originalImage == s.originalImage
    ensures t.processing.status == (if outcome.Success? then StatusSuccess else StatusError)
    ensures outcome.Success? ==> t.image == Some(outcome.value) && |t.history| <= HistoryCapacity
    ensures outcome.Failure? ==> t.image == s.image && t.history == s.history
  {
    match outcome
    case Success(image) =>
      AddToHistory(s, image).(processing := ProcessingState(StatusSuccess, Some(DoneMessage)))
    case Failure(e) =>
      s.(processing := ProcessingState(StatusError, Some(ErrorMessage(e.Message()))))
  }

  /** `processWithAI`: `action` is the gateway call, applied to the current image. */
  function ProcessWithAI(s: EditorState, loadingMessage: string,
                         action: string -> Result<string, Gemini.EditError>): (t: EditorState)
    ensures t.originalImage == s.originalImage
    ensures |s.history| <= HistoryCapacity ==> |t.history| <= HistoryCapacity
    ensures Present(s.image) ==> t.processing.status in {StatusSuccess, StatusError}
  {
    if !Present(s.image) then s
    else FinishEdit(BeginEdit(s, loadingMessage), action(s.image.value))
  }

  /** The loading state is transient: once the edit completes, the state no
      longer depends on which loading message was shown, whatever the outcome. */
  lemma LoadingStateIsTransient(s: EditorState, shown: string, other: string,
                                outcome: Result<string, Gemini.EditError>)
    ensures FinishEdit(BeginEdit(s, shown), outcome) == FinishEdit(BeginEdit(s, other), outcome)
    ensures FinishEdit(BeginEdit(s, shown), outcome).processing.status != StatusProcessing
  {
  }

  /** Without an image, no AI tool changes anything. */
  lemma NoImageNoEdit(s: EditorState, loadingMessage: string, action: string -> Result<string, Gemini.EditError>)
    requires !Present(s.image)
    ensures ProcessWithAI(s, loadingMessage, action) == s
  {
  }

  /** A failed edit leaves image, original and history as they were and
      reports the error, as offline mode when it mentions the API key. */
  lemma FailedEditChangesOnlyStatus(s: EditorState, loadingMessage: string,
                                    action: string -> Result<string, Gemini.EditError>)
    requires Present(s.image)
    requires action(s.image.value).Failure?
    ensures var t := ProcessWithAI(s, loadingMessage, action);
      && t.image == s.image && t.originalImage == s.originalImage && t.history == s.history
      && t.processing.status == StatusError
      && t.processing.message == Some(ErrorMessage(action(s.image.value).error.Message()))
  {
  }

  /** A successful edit shows the result, pushes the replaced image onto the
      history and reports success. */
  lemma SucceededEditPushesHistory(s: EditorState, loadingMessage: string,
                                   action: string -> Result<string, Gemini.EditError>)
    requires Present(s.image)
    requires action(s.image.value).Success?
    ensures var t := ProcessWithAI(s, loadingMessage, action);
      && t.image == Some(action(s.image.value).value)
      && t.history == LastN(s.history + [s.image.value], HistoryCapacity)
      && t.originalImage == s.originalImage
      && t.processing == ProcessingState(StatusSuccess, Some(DoneMessage))
  {
    AddIsBoundedPush(BeginEdit(s, "x"), action(s.image.value).value);
    AddIsBoundedPush(s, action(s.image.value).value);
  }

  /** `handleRemoveBg`. */
  function HandleRemoveBg(s: EditorState, color: string, apiKey: Option<string>,
                          answer: Gemini.Request -> Gemini.Response): (t: EditorState)
    ensures !Present(s.image) ==> t == s
    ensures Present(s.image) ==> t.processing.status in {StatusSuccess, StatusError}
    ensures t.originalImage == s.originalImage
    ensures Present(s.image) ==>
      t == FinishEdit(s, Gemini.EditImage(apiKey, s.image.value, Gemini.RemoveBackgroundInstruction(color), answer))
  {
    ProcessWithAI(s, "Removing background...", image => Gemini.RemoveBackground(apiKey, image, color, answer))
  }

  /** `handleOutfitChange`. */
  function HandleOutfitChange(s: EditorState, outfit: PromptOption, apiKey: Option<string>,
                              answer: Gemini.Request -> Gemini.Response): (t: EditorState)
    ensures !Present(s.image) ==> t == s
    ensures Present(s.image) ==> t.processing.status in {StatusSuccess, StatusError}
    ensures t.originalImage == s.originalImage
    ensures Present(s.image) ==>
      t == FinishEdit(s, Gemini.EditImage(apiKey, s.image.value, Gemini.ChangeOutfitInstruction(outfit.prompt), answer))
  {
    ProcessWithAI(s, "Changing outfit...", image => Gemini.ChangeOutfit(apiKey, image, outfit.prompt, answer))
  }

  /** `handleBeauty`: the 'none' level restores the original, any other asks
      the model for a retouch. */
  function HandleBeauty(s: EditorState, level: PromptOption, apiKey: Option<string>,
                        answer: Gemini.Request -> Gemini.Response): (t: EditorState)
    ensures level.id == NoneLevelId ==> t.history == s.history && t.processing == s.processing
    ensures level.id != NoneLevelId && Present(s.image) ==> t.processing.status in {StatusSuccess, StatusError}
    ensures t.originalImage == s.originalImage
    ensures level.id == NoneLevelId ==> t == RestoreOriginal(s)
    ensures level.id != NoneLevelId && Present(s.image) ==>
      t == FinishEdit(s, Gemini.EditImage(apiKey, s.image.value, Gemini.ApplyBeautyInstruction(level.prompt), answer))
  {
    if level.id == NoneLevelId then RestoreOriginal(s)
    else ProcessWithAI(s, "Retouching...", image => Gemini.ApplyBeauty(apiKey, image, level.prompt, answer))
  }

  /** `t` shows the model's image `url` after an edit of `s`: the replaced
      image is pushed onto the bounded history, the original is kept and the
      status reports success. */
  predicate ShowsModelImage(s: EditorState, t: EditorState, url: string)
    requires Present(s.image)
  {
    && t.image == Some(url)
    && t.history == LastN(s.history + [s.image.value], HistoryCapacity)
    && t.originalImage == s.originalImage
    && t.processing == ProcessingState(StatusSuccess, Some(DoneMessage))
  }

  /** Background removal answered with image parts shows the first image
      part, sent with the colour's instruction. */
  lemma RemoveBgShowsModelImage(s: EditorState, color: string, apiKey: Option<string>,
                                answer: Gemini.Request -> Gemini.Response, ps: seq<Gemini.Part>, i: int)
    requires Present(s.image) && Present(apiKey)
    requires answer(Gemini.BuildRequest(s.image.value, Gemini.RemoveBackgroundInstruction(color))) == Gemini.Answered(Some(ps))
    requires Gemini.FirstImage(ps, i)
    ensures ShowsModelImage(s, HandleRemoveBg(s, color, apiKey, answer), Gemini.ImagePartUrl(ps[i]))
  {
    Gemini.AnsweredEditUsesFirstImage(apiKey, s.image.value, Gemini.RemoveBackgroundInstruction(color), answer, ps, i);
    AddIsBoundedPush(s, Gemini.ImagePartUrl(ps[i]));
  }

  /** An outfit change answered with image parts shows the first image part,
      sent with the outfit's instruction. */
  lemma OutfitChangeShowsModelImage(s: EditorState, outfit: PromptOption, apiKey: Option<string>,
                                    answer: Gemini.Request -> Gemini.Response, ps: seq<Gemini.Part>, i: int)
    requires Present(s.image) && Present(apiKey)
    requires answer(Gemini.BuildRequest(s.image.value, Gemini.ChangeOutfitInstruction(outfit.prompt))) == Gemini.Answered(Some(ps))
    requires Gemini.FirstImage(ps, i)
    ensures ShowsModelImage(s, HandleOutfitChange(s, outfit, apiKey, answer), Gemini.ImagePartUrl(ps[i]))
  {
    Gemini.AnsweredEditUsesFirstImage(apiKey, s.image.value, Gemini.ChangeOutfitInstruction(outfit.prompt), answer, ps, i);
    AddIsBoundedPush(s, Gemini.ImagePartUrl(ps[i]));
  }

  /** A retouch at a level other than 'none' answered with image parts shows
      the first image part, sent with the level's instruction. */
  lemma BeautyShowsModelImage(s: EditorState, level: PromptOption, apiKey: Option<string>,
                              answer: Gemini.Request -> Gemini.Response, ps: seq<Gemini.Part>, i: int)
    requires level.id != NoneLevelId
    requires Present(s.image) && Present(apiKey)
    requires answer(Gemini.BuildRequest(s.image.value, Gemini.ApplyBeautyInstruction(level.prompt))) == Gemini.Answered(Some(ps))
    requires Gemini.FirstImage(ps, i)
    ensures ShowsModelImage(s, HandleBeauty(s, level, apiKey, answer), Gemini.ImagePartUrl(ps[i]))
  {
    Gemini.AnsweredEditUsesFirstImage(apiKey, s.image.value, Gemini.ApplyBeautyInstruction(level.prompt), answer, ps, i);
    AddIsBoundedPush(s, Gemini.ImagePartUrl(ps[i]));
  }

  /** Choosing the 'none' level never calls the model: it shows the original
      and leaves history and status alone, whatever the network would answer. */
  lemma BeautyNoneRestoresOriginal(s: EditorState, level: PromptOption, apiKey: Option<string>,
                                   answer: Gemini.Request -> Gemini.Response)
    requires level.id == NoneLevelId
    requires Present(s.originalImage)
    ensures var t := HandleBeauty(s, level, apiKey, answer);
      t.image == s.originalImage && t.history == s.history && t.processing == s.processing
  {
  }

  /** Without an API key background removal puts the editor in offline mode and
      changes nothing else. */
  lemma MissingKeyMeansOffline(s: EditorState, color: string, apiKey: Option<string>,
                               answer: Gemini.Request -> Gemini.Response)
    requires Present(s.image)
    requires !Present(apiKey)
    ensures var t := HandleRemoveBg(s, color, apiKey, answer);
      && t.image == s.image && t.history == s.history && t.originalImage == s.originalImage
      && t.processing == ProcessingState(StatusError, Some(OfflineMessage))
  {
    var action := (image: string) => Gemini.RemoveBackground(apiKey, image, color, answer);
    Gemini.MissingKeyFails(apiKey, s.image.value, Gemini.RemoveBackgroundInstruction(color), answer, answer);
    assert action(s.image.value) == Failure(Gemini.MissingApiKey);
  }

  /** A message without the letter 'K' never reads as offline mode. */
  lemma NoMarkerWithoutK(message: string)
    requires 'K' !in message
    ensures !Contains(message, Gemini.ApiKeyMarker)
  {
    assert Gemini.ApiKeyMarker[4] == 'K';
    if Contains(message, Gemini.ApiKeyMarker) {
      ContainsOnlyOwnChars(message, Gemini.ApiKeyMarker, 'K');
    }
  }

  /** The gateway's fixed messages for an empty or image-less response are
      shown as they are, not as offline mode, which only the missing key's
      message triggers (`MissingKeyMeansOffline`). */
  lemma GatewayMessagesShownAsIs(e: Gemini.EditError)
    requires e.NoContent? || e.NoImageData?
    ensures ErrorMessage(e.Message()) == e.Message()
  {
    var message := e.Message();
    if e.NoContent? {
      assert message == "No content generated";
    } else {
      assert message == "No image data found in response";
    }
    NoMarkerWithoutK(message);
  }

  /** A model refusal is shown with the model's text, unless that text
      mentions the API key; text without a 'K' never does. */
  lemma RefusalShownAsIs(text: string)
    requires 'K' !in text
    ensures ErrorMessage(Gemini.EditError.ModelRefusal(text).Message())
      == Gemini.EditError.ModelRefusal(text).Message()
  {
    var message := Gemini.EditError.ModelRefusal(text).Message();
    assert message == "AI Generation failed: " + text;
    assert 'K' !in message by {
      assert 'K' !in "AI Generation failed: ";
    }
    NoMarkerWithoutK(message);
  }

  /** The editor's actions, with the gateway's answer for AI edits fixed in advance. */
  datatype Action =
    | PickFile(file: Option<string>)
    | UndoEdit
    | RestoreOriginalImage
    | AiEdit(loadingMessage: string, outcome: Result<string, Gemini.EditError>)

  function Apply(s: EditorState, a: Action): EditorState {
    match a
    case PickFile(file) => Upload(s, file)
    case UndoEdit => Undo(s)
    case RestoreOriginalImage => RestoreOriginal(s)
    case AiEdit(msg, outcome) => ProcessWithAI(s, msg, _ => outcome)
  }

  function ApplyAll(s: EditorState, actions: seq<Action>): EditorState
    decreases |actions|
  {
    if actions == [] then s else ApplyAll(Apply(s, actions[0]), actions[1..])
  }

  /** The history never exceeds five entries, and the original image changes
      only on upload, so restoring it stays possible however many edits were
      made. */
  lemma {:induction false} ActionsKeepInvariants(s: EditorState, actions: seq<Action>)
    requires |s.history| <= HistoryCapacity
    ensures |ApplyAll(s, actions).history| <= HistoryCapacity
    ensures (forall i :: 0 <= i < |actions| ==> !actions[i].PickFile?) ==>
      ApplyAll(s, actions).originalImage == s.originalImage
    decreases |actions|
  {
    if actions != [] {
      ActionsKeepInvariants(Apply(s, actions[0]), actions[1..]);
      if forall i :: 0 <= i < |actions| ==> !actions[i].PickFile? {
        assert forall i :: 0 <= i < |actions[1..]| ==> !actions[1..][i].PickFile? by {
          forall i | 0 <= i < |actions[1..]| ensures !actions[1..][i].PickFile? {
            assert actions[1..][i] == actions[i + 1];
          }
        }
      }
    }
  }

  /** Before the first upload nothing can happen: from the startup state,
      undo, restoring the original and every AI tool leave the editor as it
      started. */
  lemma {:induction false} NothingHappensBeforeUpload(actions: seq<Action>)
    requires forall i :: 0 <= i < |actions| ==> !actions[i].PickFile?
    ensures ApplyAll(Initial, actions) == Initial
    decreases |actions|
  {
    if actions != [] {
      assert Apply(Initial, actions[0]) == Initial;
      assert forall i :: 0 <= i < |actions[1..]| ==> !actions[1..][i].PickFile? by {
        forall i | 0 <= i < |actions[1..]| ensures !actions[1..][i].PickFile? {
          assert actions[1..][i] == actions[i + 1];
        }
      }
      NothingHappensBeforeUpload(actions[1..]);
    }
  }

  // ---------------------------------------------------------------------------
  // Download
  // ---------------------------------------------------------------------------

  /** What the download handler produces: a canvas of the size's pixel
      dimensions filled with a background colour, the rectangle the image is
      drawn into, and the file name. */
  datatype Download = Download(canvasWidth: int, canvasHeight: int, background: string,
                               drawRect: Rect, fileName: string)

  const CanvasBackground: string := "#ffffff"
  const FileNamePrefix: string := "fresh-id-"
  const FileNameExtension: string := ".png"

  function DigitChar(d: nat): char
    requires d < 10
  {
    ('0' as int + d) as char
  }

  function DigitValue(c: char): int {
    c as int - '0' as int
  }

  predicate IsDigits(s: string) {
    forall i :: 0 <= i < |s| ==> '0' <= s[i] <= '9'
  }

  /** The decimal value of a digit string. */
  function ParseDecimal(s: string): int
    decreases |s|
  {
    if s == [] then 0 else ParseDecimal(s[..|s| - 1]) * 10 + DigitValue(s[|s| - 1])
  }

  /** How a timestamp appears in a template literal: its decimal digits. */
  function Decimal(n: nat): (r: string)
    ensures |r| >= 1 && IsDigits(r)
    ensures ParseDecimal(r) == n
    decreases n
  {
    if n < 10 then [DigitChar(n)]
    else
      var r := Decimal(n / 10) + [DigitChar(n % 10)];
      assert r[..|r| - 1] == Decimal(n / 10);
      r
  }

  /** `fresh-id-<size id>-<timestamp>.png`. */
  function DownloadName(sizeId: string, timestamp: nat): (name: string)
    ensures IsPrefix(FileNamePrefix + sizeId + "-", name) && IsSuffix(FileNameExtension, name)
  {
    FileNamePrefix + sizeId + "-" + Decimal(timestamp) + FileNameExtension
  }

  /** The file name names the size and the moment of the download, and the
      timestamp can be read back from it. */
  lemma DownloadNameParts(sizeId: string, timestamp: nat)
    ensures var name := DownloadName(sizeId, timestamp);
      var stampStart := |FileNamePrefix + sizeId + "-"|;
      && IsPrefix(FileNamePrefix + sizeId + "-", name)
      && IsSuffix(FileNameExtension, name)
      && IsDigits(name[stampStart..|name| - |FileNameExtension|])
      && ParseDecimal(name[stampStart..|name| - |FileNameExtension|]) == timestamp
  {
    var name := DownloadName(sizeId, timestamp);
    var head := FileNamePrefix + sizeId + "-";
    assert name == head + Decimal(timestamp) + FileNameExtension;
    assert name[..|head|] == head;
    assert name[|name| - |FileNameExtension|..] == FileNameExtension;
    assert name[|head|..|name| - |FileNameExtension|] == Decimal(timestamp);
  }

  /** `handleDownload`, once the image has decoded to its natural size: with
      no image there is nothing to download. */
  function HandleDownload(s: EditorState, size: IdPhotoSize, view: ViewTransform,
                          naturalWidth: real, naturalHeight: real, timestamp: nat): (d: Option<Download>)
    requires naturalWidth > 0.0 && naturalHeight > 0.0
    requires view.scale > 0.0
    requires ValidSize(size)
    ensures d.Some? <==> Present(s.image)
    ensures d.Some? ==>
      && d.value.canvasWidth == size.widthPx && d.value.canvasHeight == size.heightPx
      && d.value.background == CanvasBackground
      && d.value.fileName == DownloadName(size.id, timestamp)
  {
    if !Present(s.image) then None
    else Some(Download(size.widthPx, size.heightPx, CanvasBackground,
                       ExportRect(naturalWidth, naturalHeight, view, size),
                       DownloadName(size.id, timestamp)))
  }

  /** The download exists exactly when an image is shown; its canvas is the
      preview frame enlarged by the export ratio, and the image is drawn where
      the preview shows it, enlarged by the same ratio. */
  lemma DownloadIsPreviewEnlarged(s: EditorState, size: IdPhotoSize, view: ViewTransform,
                                  naturalWidth: real, naturalHeight: real, timestamp: nat)
    requires naturalWidth > 0.0 && naturalHeight > 0.0
    requires view.scale > 0.0
    requires ValidSize(size)
    ensures var d := HandleDownload(s, size, view, naturalWidth, naturalHeight, timestamp);
      var f := DisplayDimensions(size);
      var ratio := ExportRatio(size);
      && (d.Some? <==> Present(s.image))
      && (d.Some? ==>
            && Rect(0.0, 0.0, d.value.canvasWidth as real, d.value.canvasHeight as real)
                 == Rect(0.0, 0.0, f.width, f.height).Scaled(ratio)
            && d.value.drawRect == PreviewRect(naturalWidth, naturalHeight, view, f).Scaled(ratio))
  {
    FrameMapsOntoCanvas(size);
    ExportMatchesPreview(naturalWidth, naturalHeight, view, size);
  }
}

=== FILE: gemini.dfy ===
/** The AI edit gateway (`services/geminiService.ts`): how an image data URL is
    turned into a request, how the model's response parts are read back into
    a data URL or an error, and the instructions each editing tool sends.
    The network call itself is a parameter: a function from the request sent
    to the response received. */
module Gemini {
  import opened Common
  import Catalog

  // ---------------------------------------------------------------------------
  // Data URLs
  // ---------------------------------------------------------------------------

  /** `s.split(sep)`: the maximal separator-free pieces between occurrences
      of `sep`, in order; joining them back with `sep` gives `s`. */
  function Split(s: string, sep: char): (parts: seq<string>)
    ensures |parts| >= 1
    ensures forall i :: 0 <= i < |parts| ==> sep !in parts[i]
    ensures Join(parts, sep) == s
    decreases |s|
  {
    if s == [] then [""]
    else
      var rest := Split(s[1..], sep);
      if s[0] == sep then [""] + rest
      else [[s[0]] + rest[0]] + rest[1..]
  }

  /** `parts.join(sep)`. */
  function Join(parts: seq<string>, sep: char): string
    requires |parts| >= 1
    decreases |parts|
  {
    if |parts| == 1 then parts[0] else parts[0] + [sep] + Join(parts[1..], sep)
  }

  /** A separator-free prefix stays glued to the first piece of what follows. */
  lemma {:induction false} SplitAfterPlainPrefix(a: string, t: string, sep: char)
    requires sep !in a
    ensures Split(a + t, sep) == [a + Split(t, sep)[0]] + Split(t, sep)[1..]
    decreases |a|
  {
    if a != [] {
      assert (a + t)[0] == a[0];
      assert (a + t)[1..] == a[1..] + t;
      SplitAfterPlainPrefix(a[1..], t, sep);
      assert [a[0]] + (a[1..] + Split(t, sep)[0]) == a + Split(t, sep)[0];
    } else {
      assert a + t == t;
      assert a + Split(t, sep)[0] == Split(t, sep)[0];
      assert Split(t, sep) == [Split(t, sep)[0]] + Split(t, sep)[1..];
    }
  }

  /** Splitting undoes joining separator-free pieces. */
  lemma {:induction false} SplitJoin(parts: seq<string>, sep: char)
    requires |parts| >= 1
    requires forall i :: 0 <= i < |parts| ==> sep !in parts[i]
    ensures Split(Join(parts, sep), sep) == parts
    decreases |parts|
  {
    if |parts| == 1 {
      SplitAfterPlainPrefix(parts[0], "", sep);
      assert parts[0] + "" == parts[0];
    } else {
      var tail := Join(parts[1..], sep);
      SplitJoin(parts[1..], sep);
      var t := [sep] + tail;
      assert Join(parts, sep) == parts[0] + t;
      SplitAfterPlainPrefix(parts[0], t, sep);
      assert t[1..] == tail;
      assert Split(t, sep) == [""] + parts[1..];
      assert parts[0] + "" == parts[0];
    }
  }

  /** `extractBase64`: the second comma-separated piece of a data URL, the
      base64 payload, or the whole input when there is no such non-empty piece. */
  function ExtractBase64(dataUrl: string): (payload: string)
    ensures payload == dataUrl || (payload != "" && ',' !in payload)
  {
    var parts := Split(dataUrl, ',');
    if |parts| > 1 && parts[1] != "" then parts[1] else dataUrl
  }

  /** Input without a comma passes through unchanged. */
  lemma ExtractBase64WithoutComma(s: string)
    requires ',' !in s
    ensures ExtractBase64(s) == s
  {
    SplitJoin([s], ',');
  }

  /** With a comma, the result is the text between the first and the second
      comma (or the end), if that text is non-empty, and the whole input
      otherwise. */
  lemma ExtractBase64Segment(head: string, payload: string, rest: string)
    requires ',' !in head && ',' !in payload
    requires rest == [] || rest[0] == ','
    ensures var s := head + "," + payload + rest;
      ExtractBase64(s) == if payload != "" then payload else s
  {
    var s := head + "," + payload + rest;
    var t := [','] + (payload + rest);
    assert s == head + t;
    SplitAfterPlainPrefix(head, t, ',');
    assert t[1..] == payload + rest;
    SplitAfterPlainPrefix(payload, rest, ',');
    if rest == [] {
      SplitJoin([""], ',');
    } else {
      assert rest == [','] + rest[1..];
    }
    assert Split(rest, ',')[0] == "";
    assert payload + "" == payload;
  }

  /** The data URL built from a MIME type and a base64 payload. */
  function DataUrl(mimeType: string, data: string): string {
    "data:" + mimeType + ";base64," + data
  }

  /** `extractBase64` recovers the payload of any data URL built here, as long
      as neither part contains a comma and the payload is non-empty. */
  lemma DataUrlRoundTrip(mimeType: string, data: string)
    requires ',' !in mimeType && ',' !in data && data != ""
    ensures ExtractBase64(DataUrl(mimeType, data)) == data
  {
    var head := "data:" + mimeType + ";base64";
    assert ',' !in head;
    assert DataUrl(mimeType, data) == head + "," + data + "";
    ExtractBase64Segment(head, data, "");
  }

  // ---------------------------------------------------------------------------
  // Requests and responses
  // ---------------------------------------------------------------------------

  const ModelName: string := "gemini-2.5-flash-image"

  /** Appended to every instruction before it is sent. */
  const PromptSuffix: string :=
    ". Ensure the result is a high-quality ID photo portrait. Maintain the person's facial identity strictly. Output only the image."

  /** What the gateway sends: the model, the image payload with its declared
      MIME type, and the prompt. */
  datatype Request = Request(model: string, imageMimeType: string, imageData: string, prompt: string)

  /** The MIME type every request declares for its image payload. */
  const RequestMimeType: string := "image/png"

  /** The request for an image and an instruction. The payload is always
      declared `image/png`, whatever the data URL said. */
  function BuildRequest(image: string, instruction: string): (r: Request)
    ensures r.imageMimeType == RequestMimeType
    ensures IsPrefix(instruction, r.prompt) && IsSuffix(PromptSuffix, r.prompt)
  {
    var r := Request(ModelName, RequestMimeType, ExtractBase64(image), instruction + PromptSuffix);
    assert r.prompt[..|instruction|] == instruction;
    assert r.prompt[|r.prompt| - |PromptSuffix|..] == PromptSuffix;
    r
  }

  /** The prompt is the instruction followed by the fixed suffix, so the
      instruction can be read back from it. */
  lemma PromptCarriesInstruction(image: string, instruction: string)
    ensures var p := BuildRequest(image, instruction).prompt;
      && IsPrefix(instruction, p)
      && IsSuffix(PromptSuffix, p)
      && p[..|p| - |PromptSuffix|] == instruction
  {
    var p := BuildRequest(image, instruction).prompt;
    assert p[..|instruction|] == instruction;
    assert p[|p| - |PromptSuffix|..] == PromptSuffix;
  }

  /** `inlineData` of a response part. */
  datatype InlineData = InlineData(mimeType: Option<string>, data: Option<string>)

  /** One part of the first candidate's content. */
  datatype Part = Part(inlineData: Option<InlineData>, text: Option<string>)

  /** The outcome of the network call: the library threw, or a response came
      back whose `candidates[0].content.parts` may be missing. */
  datatype Response = Thrown(message: string) | Answered(parts: Option<seq<Part>>)

  /** The ways an edit fails, each with the message of the `Error` thrown. */
  datatype EditError =
    | MissingApiKey
    | RequestFailed(reason: string)
    | NoContent
    | ModelRefusal(text: string)
    | NoImageData
  {
    function Message(): string {
      match this
      case MissingApiKey => ApiKeyMarker + " missing. AI features require an API Key."
      case RequestFailed(reason) => reason
      case NoContent => "No content generated"
      case ModelRefusal(text) => "AI Generation failed: " + text
      case NoImageData => "No image data found in response"
    }
  }

  /** A part carrying image bytes (`part.inlineData && part.inlineData.data`). */
  predicate HasImage(p: Part) {
    p.inlineData.Some? && Present(p.inlineData.value.data)
  }

  /** A part carrying text (`p.text`). */
  predicate HasText(p: Part) {
    Present(p.text)
  }

  /** The first index at or after `from` whose part satisfies `wanted`. */
  function FirstWhere(parts: seq<Part>, wanted: Part -> bool, from: nat): (found: Option<nat>)
    requires from <= |parts|
    ensures found.Some? ==>
      && from <= found.value < |parts|
      && wanted(parts[found.value])
      && forall j :: from <= j < found.value ==> !wanted(parts[j])
    ensures found.None? ==> forall j :: from <= j < |parts| ==> !wanted(parts[j])
    decreases |parts| - from
  {
    if from == |parts| then None
    else if wanted(parts[from]) then Some(from)
    else FirstWhere(parts, wanted, from + 1)
  }

  /** The default MIME type of a returned image. */
  const DefaultMimeType: string := "image/png"

  /** The data URL for an image part, its MIME type defaulting to PNG. */
  function ImagePartUrl(p: Part): string
    requires HasImage(p)
  {
    DataUrl(OrElse(p.inlineData.value.mimeType, DefaultMimeType), p.inlineData.value.data.value)
  }

  /** Reading the response parts: the first image part becomes a data URL;
      without one, the first text part is the model's refusal; failing that,
      there was no image. Missing parts mean no content at all. */
  function Interpret(parts: Option<seq<Part>>): (r: Result<string, EditError>)
    ensures r.Failure? ==> r.error.NoContent? || r.error.ModelRefusal? || r.error.NoImageData?
    ensures r == Failure(NoContent) <==> parts.None?
  {
    match parts
    case None => Failure(NoContent)
    case Some(ps) =>
      match FirstWhere(ps, HasImage, 0)
      case Some(i) => Success(ImagePartUrl(ps[i]))
      case None =>
        match FirstWhere(ps, HasText, 0)
        case Some(j) => Failure(ModelRefusal(ps[j].text.value))
        case None => Failure(NoImageData)
  }

  /** The response is a success exactly when some part carries image bytes,
      and then it is the first such part, at whatever position. */
  lemma InterpretSuccess(parts: Option<seq<Part>>)
    ensures Interpret(parts).Success? <==>
      parts.Some? && exists i :: 0 <= i < |parts.value| && HasImage(parts.value[i])
    ensures Interpret(parts).Success? ==>
      exists i :: 0 <= i < |parts.value|
        && HasImage(parts.value[i])
        && (forall j :: 0 <= j < i ==> !HasImage(parts.value[j]))
        && Interpret(parts).value == ImagePartUrl(parts.value[i])
  {
  }

  /** The three error cases: no parts at all; parts without an image but
      with some text, reported with the first text; neither image nor text. */
  lemma InterpretFailures(ps: seq<Part>)
    requires forall i :: 0 <= i < |ps| ==> !HasImage(ps[i])
    ensures Interpret(None) == Failure(NoContent)
    ensures (exists i :: 0 <= i < |ps| && HasText(ps[i])) ==>
      exists i :: 0 <= i < |ps| && HasText(ps[i])
        && (forall j :: 0 <= j < i ==> !HasText(ps[j]))
        && Interpret(Some(ps)) == Failure(ModelRefusal(ps[i].text.value))
    ensures (forall i :: 0 <= i < |ps| ==> !HasText(ps[i])) ==>
      Interpret(Some(ps)) == Failure(NoImageData)
  {
    var img := FirstWhere(ps, HasImage, 0);
    assert img.None?;
    var txt := FirstWhere(ps, HasText, 0);
    if txt.Some? {
      var i := txt.value;
      assert Interpret(Some(ps)) == Failure(ModelRefusal(ps[i].text.value));
    }
  }

  /** An image returned by the model can be sent back in the next request:
      `extractBase64` recovers exactly the bytes the model returned, provided
      neither its MIME type nor its payload contains a comma. */
  lemma ResultFeedsNextRequest(p: Part, instruction: string)
    requires HasImage(p)
    requires ',' !in OrElse(p.inlineData.value.mimeType, DefaultMimeType)
    requires ',' !in p.inlineData.value.data.value
    ensures BuildRequest(ImagePartUrl(p), instruction).imageData == p.inlineData.value.data.value
  {
    DataUrlRoundTrip(OrElse(p.inlineData.value.mimeType, DefaultMimeType), p.inlineData.value.data.value);
  }

  /** Any data URL, an uploaded file's included, reaches the model as its
      payload: the request carries exactly the bytes after the comma. */
  lemma DataUrlFeedsRequest(mimeType: string, data: string, instruction: string)
    requires ',' !in mimeType && ',' !in data && data != ""
    ensures BuildRequest(DataUrl(mimeType, data), instruction).imageData == data
  {
    DataUrlRoundTrip(mimeType, data);
  }

  /** `editImageWithGemini`: without an API key the call fails before any
      request is sent; otherwise the response to the built request is read. */
  function EditImage(apiKey: Option<string>, image: string, instruction: string,
                     answer: Request -> Response): (r: Result<string, EditError>)
    ensures r == Failure(MissingApiKey) <==> !Present(apiKey)
    ensures Present(apiKey) && answer(BuildRequest(image, instruction)).Answered? ==>
      r == Interpret(answer(BuildRequest(image, instruction)).parts)
  {
    if !Present(apiKey) then Failure(MissingApiKey)
    else
      match answer(BuildRequest(image, instruction))
      case Thrown(message) => Failure(RequestFailed(message))
      case Answered(parts) => Interpret(parts)
  }

  /** The phrase the editor looks for to recognise offline mode. */
  const ApiKeyMarker: string := "API Key"

  /** A missing key fails the same way whatever the network would have said,
      and its message carries the phrase that marks offline mode. */
  lemma MissingKeyFails(apiKey: Option<string>, image: string, instruction: string,
                        answer: Request -> Response, other: Request -> Response)
    requires !Present(apiKey)
    ensures EditImage(apiKey, image, instruction, answer) == Failure(MissingApiKey)
    ensures EditImage(apiKey, image, instruction, answer) == EditImage(apiKey, image, instruction, other)
    ensures Contains(MissingApiKey.Message(), ApiKeyMarker)
  {
    ContainsAfter("", ApiKeyMarker, " missing. AI features require an API Key.");
    assert "" + ApiKeyMarker + " missing. AI features require an API Key." == MissingApiKey.Message();
  }

  /** With a key, an error thrown by the client library is passed on
      unchanged: the edit fails with the library's own message, never with
      the missing-key one. */
  lemma ThrownErrorPassesThrough(apiKey: Option<string>, image: string, instruction: string,
                                 answer: Request -> Response)
    requires Present(apiKey)
    requires answer(BuildRequest(image, instruction)).Thrown?
    ensures var r := EditImage(apiKey, image, instruction, answer);
      && r.Failure?
      && r.error.Message() == answer(BuildRequest(image, instruction)).message
      && r != Failure(MissingApiKey)
  {
  }

  /** `i` is the position of the first part that carries image bytes. */
  predicate FirstImage(ps: seq<Part>, i: int) {
    0 <= i < |ps| && HasImage(ps[i]) && forall j :: 0 <= j < i ==> !HasImage(ps[j])
  }

  /** With a key, an answered request yields the data URL of the first part
      that carries image bytes, whatever follows it. */
  lemma AnsweredEditUsesFirstImage(apiKey: Option<string>, image: string, instruction: string,
                                   answer: Request -> Response, ps: seq<Part>, i: int)
    requires Present(apiKey)
    requires answer(BuildRequest(image, instruction)) == Answered(Some(ps))
    requires FirstImage(ps, i)
    ensures EditImage(apiKey, image, instruction, answer) == Success(ImagePartUrl(ps[i]))
  {
    assert FirstWhere(ps, HasImage, 0) == Some(i);
  }

  // ---------------------------------------------------------------------------
  // Instructions
  // ---------------------------------------------------------------------------

  const GradientPhrase: string := "a professional blue gradient background"
  const SolidLead: string := "a solid "
  const SolidTail: string := " background"

  /** The background requested for a colour argument: the blue gradient for
      `"gradient"`, otherwise a solid background of exactly that colour. */
  function BackgroundPhrase(color: string): (p: string)
    ensures p == GradientPhrase <==> color == Catalog.GradientValue
    ensures color != Catalog.GradientValue ==>
      && |p| == |SolidLead| + |color| + |SolidTail|
      && IsPrefix(SolidLead, p) && IsSuffix(SolidTail, p)
      && p[|SolidLead|..|p| - |SolidTail|] == color
  {
    if color == Catalog.GradientValue then GradientPhrase
    else
      ReadBack(SolidLead, color, SolidTail);
      assert (SolidLead + color + SolidTail)[2] != GradientPhrase[2];
      SolidLead + color + SolidTail
  }

  const BackgroundLead: string := "Extract the person and place them on "
  const BackgroundTail: string := ". Ensure clean edges and hair details."

  /** The instruction of `removeBackground`: the background phrase between a
      fixed lead and tail. */
  function RemoveBackgroundInstruction(color: string): (r: string)
    ensures |r| == |BackgroundLead| + |BackgroundPhrase(color)| + |BackgroundTail|
    ensures IsPrefix(BackgroundLead, r) && IsSuffix(BackgroundTail, r)
    ensures r[|BackgroundLead|..|r| - |BackgroundTail|] == BackgroundPhrase(color)
  {
    ReadBack(BackgroundLead, BackgroundPhrase(color), BackgroundTail);
    BackgroundLead + BackgroundPhrase(color) + BackgroundTail
  }

  const OutfitLead: string := "Change the person's clothing to a "
  const OutfitTail: string :=
    ". Keep the head, face, and hair exactly the same. Only change the neck down. Ensure the clothing fits naturally."

  /** The instruction of `changeOutfit`: the outfit description between a
      fixed lead and tail. */
  function ChangeOutfitInstruction(outfitDescription: string): (r: string)
    ensures |r| == |OutfitLead| + |outfitDescription| + |OutfitTail|
    ensures IsPrefix(OutfitLead, r) && IsSuffix(OutfitTail, r)
    ensures r[|OutfitLead|..|r| - |OutfitTail|] == outfitDescription
  {
    ReadBack(OutfitLead, outfitDescription, OutfitTail);
    OutfitLead + outfitDescription + OutfitTail
  }

  const BeautyLead: string := "Enhance this ID photo with "
  const BeautyTail: string :=
    ". Keep the person's identity recognizable but improve image quality, lighting and skin tone."

  /** The instruction of `applyBeauty`: the level's prompt between a fixed
      lead and tail. */
  function ApplyBeautyInstruction(levelPrompt: string): (r: string)
    ensures |r| == |BeautyLead| + |levelPrompt| + |BeautyTail|
    ensures IsPrefix(BeautyLead, r) && IsSuffix(BeautyTail, r)
    ensures r[|BeautyLead|..|r| - |BeautyTail|] == levelPrompt
  {
    ReadBack(BeautyLead, levelPrompt, BeautyTail);
    BeautyLead + levelPrompt + BeautyTail
  }

  /** `removeBackground`. */
  function RemoveBackground(apiKey: Option<string>, image: string, color: string,
                            answer: Request -> Response): (r: Result<string, EditError>)
    ensures r == Failure(MissingApiKey) <==> !Present(apiKey)
  {
    EditImage(apiKey, image, RemoveBackgroundInstruction(color), answer)
  }

  /** `changeOutfit`. */
  function ChangeOutfit(apiKey: Option<string>, image: string, outfitDescription: string,
                        answer: Request -> Response): (r: Result<string, EditError>)
    ensures r == Failure(MissingApiKey) <==> !Present(apiKey)
  {
    EditImage(apiKey, image, ChangeOutfitInstruction(outfitDescription), answer)
  }

  /** `applyBeauty`. */
  function ApplyBeauty(apiKey: Option<string>, image: string, levelPrompt: string,
                       answer: Request -> Response): (r: Result<string, EditError>)
    ensures r == Failure(MissingApiKey) <==> !Present(apiKey)
  {
    EditImage(apiKey, image, ApplyBeautyInstruction(levelPrompt), answer)
  }

  /** With a key, different instructions are different requests, so some
      answer from the model tells them apart. */
  lemma InstructionMatters(apiKey: Option<string>, image: string, i1: string, i2: string)
    returns (answer: Request -> Response)
    requires Present(apiKey) && i1 != i2
    ensures EditImage(apiKey, image, i1, answer) != EditImage(apiKey, image, i2, answer)
  {
    PromptCarriesInstruction(image, i1);
    PromptCarriesInstruction(image, i2);
    var first := BuildRequest(image, i1).prompt;
    answer := (q: Request) => if q.prompt == first then Thrown("first") else Thrown("second");
    assert EditImage(apiKey, image, i1, answer) == Failure(RequestFailed("first"));
    assert EditImage(apiKey, image, i2, answer) == Failure(RequestFailed("second"));
  }

  /** The blue-gradient background is requested exactly for the colour
      argument `"gradient"`; every other colour asks for a solid background
      of exactly that colour. */
  lemma GradientPhraseExactly(color: string)
    ensures BackgroundPhrase(color) == GradientPhrase <==> color == Catalog.GradientValue
    ensures color != Catalog.GradientValue ==>
      var p := BackgroundPhrase(color);
      && IsPrefix(SolidLead, p) && IsSuffix(SolidTail, p)
      && p[|SolidLead|..|p| - |SolidTail|] == color
  {
  }

  /** Different colours ask for different backgrounds. */
  lemma BackgroundPhraseInjective(c1: string, c2: string)
    ensures BackgroundPhrase(c1) == BackgroundPhrase(c2) <==> c1 == c2
  {
    if BackgroundPhrase(c1) == BackgroundPhrase(c2) && c1 != Catalog.GradientValue {
      assert c2 != Catalog.GradientValue;
    }
  }

  /** A string occurs in any string built around a piece that holds it. */
  lemma ContainsNested(a: string, b: string, x: string, c: string, d: string, e: string)
    ensures Contains(a + (b + x + c) + d + e, x)
  {
    assert a + (b + x + c) + d + e == (a + b) + x + (c + d + e);
    ContainsAfter(a + b, x, c + d + e);
  }

  /** The prompt sent contains the colour argument, the word "gradient"
      included. */
  lemma ColourInPrompt(image: string, color: string)
    ensures Contains(BuildRequest(image, RemoveBackgroundInstruction(color)).prompt, color)
  {
    var lead := if color == Catalog.GradientValue then "a professional blue " else SolidLead;
    assert BackgroundPhrase(color) == lead + color + SolidTail;
    ContainsNested(BackgroundLead, lead, color, SolidTail, BackgroundTail, PromptSuffix);
  }

  /** The colour reaches the model: different colours give different
      instructions, the prompt sent contains the colour, and with a key the
      result depends on it. */
  lemma ColourReachesModel(apiKey: Option<string>, image: string, c1: string, c2: string)
    ensures RemoveBackgroundInstruction(c1) == RemoveBackgroundInstruction(c2) <==> c1 == c2
    ensures Contains(BuildRequest(image, RemoveBackgroundInstruction(c1)).prompt, c1)
    ensures Present(apiKey) && c1 != c2 ==>
      exists answer :: RemoveBackground(apiKey, image, c1, answer) != RemoveBackground(apiKey, image, c2, answer)
  {
    ColourInPrompt(image, c1);
    BackgroundPhraseInjective(c1, c2);
    if Present(apiKey) && c1 != c2 {
      var answer := InstructionMatters(apiKey, image, RemoveBackgroundInstruction(c1), RemoveBackgroundInstruction(c2));
      assert RemoveBackground(apiKey, image, c1, answer) != RemoveBackground(apiKey, image, c2, answer);
    }
  }

  /** The outfit description reaches the model: different descriptions give
      different instructions, the prompt sent contains the description, and
      with a key the result depends on it. */
  lemma OutfitReachesModel(apiKey: Option<string>, image: string, d1: string, d2: string)
    ensures ChangeOutfitInstruction(d1) == ChangeOutfitInstruction(d2) <==> d1 == d2
    ensures Contains(BuildRequest(image, ChangeOutfitInstruction(d1)).prompt, d1)
    ensures Present(apiKey) && d1 != d2 ==>
      exists answer :: ChangeOutfit(apiKey, image, d1, answer) != ChangeOutfit(apiKey, image, d2, answer)
  {
    assert BuildRequest(image, ChangeOutfitInstruction(d1)).prompt == OutfitLead + d1 + (OutfitTail + PromptSuffix);
    ContainsAfter(OutfitLead, d1, OutfitTail + PromptSuffix);
    if Present(apiKey) && d1 != d2 {
      var answer := InstructionMatters(apiKey, image, ChangeOutfitInstruction(d1), ChangeOutfitInstruction(d2));
      assert ChangeOutfit(apiKey, image, d1, answer) != ChangeOutfit(apiKey, image, d2, answer);
    }
  }

  /** The beauty level's prompt reaches the model: different prompts give
      different instructions, the prompt sent contains the level's prompt,
      and with a key the result depends on it. */
  lemma BeautyReachesModel(apiKey: Option<string>, image: string, l1: string, l2: string)
    ensures ApplyBeautyInstruction(l1) == ApplyBeautyInstruction(l2) <==> l1 == l2
    ensures Contains(BuildRequest(image, ApplyBeautyInstruction(l1)).prompt, l1)
    ensures Present(apiKey) && l1 != l2 ==>
      exists answer :: ApplyBeauty(apiKey, image, l1, answer) != ApplyBeauty(apiKey, image, l2, answer)
  {
    assert BuildRequest(image, ApplyBeautyInstruction(l1)).prompt == BeautyLead + l1 + (BeautyTail + PromptSuffix);
    ContainsAfter(BeautyLead, l1, BeautyTail + PromptSuffix);
    if Present(apiKey) && l1 != l2 {
      var answer := InstructionMatters(apiKey, image, ApplyBeautyInstruction(l1), ApplyBeautyInstruction(l2));
      assert ApplyBeauty(apiKey, image, l1, answer) != ApplyBeauty(apiKey, image, l2, answer);
    }
  }

  /** The four outfit buttons send four different instructions, and the
      three level prompts give pairwise different instructions. Only the two
      levels other than 'none' are ever sent: 'none' restores the original
      without calling the model. */
  lemma CatalogButtonsDiffer()
    ensures forall i, j :: 0 <= i < j < |Catalog.OutfitOptions| ==>
      ChangeOutfitInstruction(Catalog.OutfitOptions[i].prompt) != ChangeOutfitInstruction(Catalog.OutfitOptions[j].prompt)
    ensures forall i, j :: 0 <= i < j < |Catalog.BeautyLevels| ==>
      ApplyBeautyInstruction(Catalog.BeautyLevels[i].prompt) != ApplyBeautyInstruction(Catalog.BeautyLevels[j].prompt)
  {
    forall i, j | 0 <= i < j < |Catalog.OutfitOptions|
      ensures ChangeOutfitInstruction(Catalog.OutfitOptions[i].prompt) != ChangeOutfitInstruction(Catalog.OutfitOptions[j].prompt)
    {
      assert |Catalog.OutfitOptions[i].prompt| != |Catalog.OutfitOptions[j].prompt|;
      OutfitReachesModel(None, "", Catalog.OutfitOptions[i].prompt, Catalog.OutfitOptions[j].prompt);
    }
    forall i, j | 0 <= i < j < |Catalog.BeautyLevels|
      ensures ApplyBeautyInstruction(Catalog.BeautyLevels[i].prompt) != ApplyBeautyInstruction(Catalog.BeautyLevels[j].prompt)
    {
      assert |Catalog.BeautyLevels[i].prompt| != |Catalog.BeautyLevels[j].prompt|;
      BeautyReachesModel(None, "", Catalog.BeautyLevels[i].prompt, Catalog.BeautyLevels[j].prompt);
    }
  }

  /** Of the background buttons, exactly the gradient entry requests the
      blue-gradient background. */
  lemma GradientButtonRequestsGradient()
    ensures forall i :: 0 <= i < |Catalog.BgColors| ==>
      ((BackgroundPhrase(Catalog.ColorArgument(Catalog.BgColors[i])) == GradientPhrase)
        <==> Catalog.BgColors[i].value == Catalog.GradientValue)
  {
    Catalog.GradientEntryUnique();
    forall i | 0 <= i < |Catalog.BgColors|
      ensures (BackgroundPhrase(Catalog.ColorArgument(Catalog.BgColors[i])) == GradientPhrase)
        <==> Catalog.BgColors[i].value == Catalog.GradientValue
    {
      GradientPhraseExactly(Catalog.ColorArgument(Catalog.BgColors[i]));
    }
  }
}

=== FILE: geometry.dfy ===
/** The geometry shared by the interactive preview and the high-resolution
    export: the display frame derived from the selected size (`App.tsx`), the
    "cover" auto-fit, the preview's CSS transform (`Workspace.tsx`) and the
    draw rectangle handed to the canvas on download (`App.tsx`).

    Arithmetic is over `real`: these are the exact values the JavaScript
    numbers approximate. */
module Geometry {
  import opened Catalog

  datatype Point = Point(x: real, y: real) {
    function Plus(q: Point): Point {
      Point(x + q.x, y + q.y)
    }

    function Minus(q: Point): Point {
      Point(x - q.x, y - q.y)
    }
  }

  const Origin: Point := Point(0.0, 0.0)

  /** A frame's width and height in pixels. */
  datatype Frame = Frame(width: real, height: real)

  /** The preview's zoom and pan: `scale` multiplies the image's natural size,
      `position` offsets the image centre from the frame centre, in display pixels. */
  datatype ViewTransform = ViewTransform(scale: real, position: Point)

  /** An axis-aligned rectangle given by its top-left corner and its size. */
  datatype Rect = Rect(x: real, y: real, width: real, height: real) {
    /** The same rectangle seen in a coordinate system `k` times finer. */
    function Scaled(k: real): Rect {
      Rect(x * k, y * k, width * k, height * k)
    }

    function Center(): Point {
      Point(x + width / 2.0, y + height / 2.0)
    }
  }

  /** The fixed height of the preview frame (`WORKSPACE_BASE_HEIGHT`). */
  const BaseHeight: real := 500.0

  /** The safety factor auto-fit applies so no frame edge is left uncovered. */
  const CoverMargin: real := 1.05

  /** The width-to-height ratio of a size, from its pixel dimensions. */
  function Aspect(size: IdPhotoSize): (a: real)
    requires ValidSize(size)
    ensures a > 0.0
  {
    size.widthPx as real / size.heightPx as real
  }

  /** `displayDimensions`: the preview frame for a size, 500 display pixels
      high and as wide as the size's aspect ratio makes it. It depends on the
      size alone, never on the image. */
  function DisplayDimensions(size: IdPhotoSize): (f: Frame)
    requires ValidSize(size)
    ensures f.height == BaseHeight
    ensures f.width > 0.0
    ensures f.width * size.heightPx as real == BaseHeight * size.widthPx as real
  {
    Frame(BaseHeight * Aspect(size), BaseHeight)
  }

  // ---------------------------------------------------------------------------
  // Auto-fit
  // ---------------------------------------------------------------------------

  /** The auto-fit effect: compare the image's aspect ratio with the frame's;
      a relatively wider image is fitted by height, any other by width; the
      fitted scale is enlarged by the cover margin and the image re-centred. */
  function AutoFit(naturalWidth: real, naturalHeight: real, size: IdPhotoSize): (v: ViewTransform)
    requires naturalWidth > 0.0 && naturalHeight > 0.0
    requires ValidSize(size)
    ensures v.scale > 0.0
    ensures v.position == Origin
  {
    var imgAspect := naturalWidth / naturalHeight;
    var frameAspect := Aspect(size);
    var fitScale :=
      if imgAspect > frameAspect then BaseHeight / naturalHeight
      else DisplayDimensions(size).width / naturalWidth;
    ViewTransform(fitScale * CoverMargin, Origin)
  }

  function Max(a: real, b: real): real {
    if a >= b then a else b
  }

  /** At `scale`, the image is at least `CoverMargin` times as large as the
      frame along both axes. */
  predicate Covers(naturalWidth: real, naturalHeight: real, scale: real, frame: Frame) {
    naturalWidth * scale >= CoverMargin * frame.width
    && naturalHeight * scale >= CoverMargin * frame.height
  }

  /** The reference definition of a cover fit: the larger of the two per-axis
      scales that make the image as large as the frame, enlarged by the margin. */
  function CoverScale(naturalWidth: real, naturalHeight: real, frame: Frame): real
    requires naturalWidth > 0.0 && naturalHeight > 0.0
  {
    CoverMargin * Max(frame.width / naturalWidth, frame.height / naturalHeight)
  }

  /** Comparing aspect ratios is comparing the two per-axis fit scales: the
      image is relatively wider exactly when the height fit is the larger one. */
  lemma AspectComparison(naturalWidth: real, naturalHeight: real, size: IdPhotoSize)
    requires naturalWidth > 0.0 && naturalHeight > 0.0
    requires ValidSize(size)
    ensures var f := DisplayDimensions(size);
      naturalWidth / naturalHeight > Aspect(size)
      <==> f.height / naturalHeight > f.width / naturalWidth
  {
    var f := DisplayDimensions(size);
    var a := Aspect(size);
    assert f.width == BaseHeight * a;
    calc {
      f.height / naturalHeight > f.width / naturalWidth;
    <==> { DivLess(BaseHeight * a, naturalWidth, BaseHeight, naturalHeight); }
      BaseHeight * a * naturalHeight < BaseHeight * naturalWidth;
    <==>
      a * naturalHeight < naturalWidth;
    <==> { DivLess(a, 1.0, naturalWidth, naturalHeight); }
      naturalWidth / naturalHeight > a;
    }
  }

  /** Cross-multiplication of fractions with positive denominators. */
  lemma DivLess(p: real, q: real, r: real, s: real)
    requires q > 0.0 && s > 0.0
    ensures p / q < r / s <==> p * s < r * q
  {
    assert p / q * (q * s) == p * s;
    assert r / s * (q * s) == r * q;
    MulMonotoneStrict(p / q, r / s, q * s);
  }

  lemma MulMonotoneStrict(a: real, b: real, k: real)
    requires k > 0.0
    ensures a < b <==> a * k < b * k
  {
    if a < b {
      assert (b - a) * k > 0.0;
    } else {
      assert (a - b) * k >= 0.0;
    }
  }

  /** Auto-fit computes the cover scale: the image covers the frame with the
      margin on both axes, exactly so on the fitted axis. */
  lemma AutoFitIsCoverScale(naturalWidth: real, naturalHeight: real, size: IdPhotoSize)
    requires naturalWidth > 0.0 && naturalHeight > 0.0
    requires ValidSize(size)
    ensures var f := DisplayDimensions(size);
      AutoFit(naturalWidth, naturalHeight, size).scale == CoverScale(naturalWidth, naturalHeight, f)
    ensures var f := DisplayDimensions(size);
      Covers(naturalWidth, naturalHeight, AutoFit(naturalWidth, naturalHeight, size).scale, f)
    ensures var f := DisplayDimensions(size); var s := AutoFit(naturalWidth, naturalHeight, size).scale;
      naturalWidth * s == CoverMargin * f.width || naturalHeight * s == CoverMargin * f.height
  {
    var f := DisplayDimensions(size);
    var s := AutoFit(naturalWidth, naturalHeight, size).scale;
    AspectComparison(naturalWidth, naturalHeight, size);
    var sw := f.width / naturalWidth;
    var sh := f.height / naturalHeight;
    assert naturalWidth * sw == f.width;
    assert naturalHeight * sh == f.height;
    if naturalWidth / naturalHeight > Aspect(size) {
      assert s == sh * CoverMargin;
      assert sh > sw;
      assert naturalWidth * s == CoverMargin * (naturalWidth * sh);
      assert naturalWidth * sh >= naturalWidth * sw by {
        MulMonotoneStrict(sw, sh, naturalWidth);
      }
    } else {
      assert s == sw * CoverMargin;
      assert sw >= sh;
      assert naturalHeight * s == CoverMargin * (naturalHeight * sw);
      assert naturalHeight * sw >= naturalHeight * sh by {
        if sw > sh {
          MulMonotoneStrict(sh, sw, naturalHeight);
        }
      }
    }
  }

  /** No smaller scale covers the frame: auto-fit crops as little as the
      margin allows. */
  lemma AutoFitIsMinimal(naturalWidth: real, naturalHeight: real, size: IdPhotoSize, scale: real)
    requires naturalWidth > 0.0 && naturalHeight > 0.0
    requires ValidSize(size)
    requires Covers(naturalWidth, naturalHeight, scale, DisplayDimensions(size))
    ensures scale >= AutoFit(naturalWidth, naturalHeight, size).scale
  {
    var f := DisplayDimensions(size);
    var s := AutoFit(naturalWidth, naturalHeight, size).scale;
    AutoFitIsCoverScale(naturalWidth, naturalHeight, size);
    if scale < s {
      if naturalWidth * s == CoverMargin * f.width {
        MulMonotoneStrict(scale, s, naturalWidth);
      } else {
        MulMonotoneStrict(scale, s, naturalHeight);
      }
      assert false;
    }
  }

  // ---------------------------------------------------------------------------
  // Preview
  // ---------------------------------------------------------------------------

  /** A map `p |-> k * p + t`: a uniform scale followed by a translation, the
      shape of every CSS transform function the preview uses. */
  datatype Similarity = Similarity(k: real, t: Point) {
    function Apply(p: Point): Point {
      Point(k * p.x + t.x, k * p.y + t.y)
    }

    /** The map that applies `m` first, then this one. */
    function After(m: Similarity): Similarity {
      Similarity(k * m.k, Point(k * m.t.x + t.x, k * m.t.y + t.y))
    }
  }

  function Translate(d: Point): Similarity {
    Similarity(1.0, d)
  }

  function Scale(s: real): Similarity {
    Similarity(s, Origin)
  }

  /** The preview `<img>`'s CSS transform, in frame coordinates. The element
      is laid out at its natural size with its top-left corner at the frame
      centre (`top: 50%; left: 50%`); its transform list
      `translate(-50%, -50%) translate(x, y) scale(s)` applies about the
      default transform origin, the element's own centre. The result scales
      by `s` and carries the element's centre to the frame centre moved by
      `position`. */
  function PreviewTransform(naturalWidth: real, naturalHeight: real, view: ViewTransform, frame: Frame): (m: Similarity)
    ensures m.k == view.scale
    ensures m.Apply(Point(frame.width / 2.0 + naturalWidth / 2.0, frame.height / 2.0 + naturalHeight / 2.0))
      == Point(frame.width / 2.0, frame.height / 2.0).Plus(view.position)
  {
    var origin := Point(frame.width / 2.0 + naturalWidth / 2.0, frame.height / 2.0 + naturalHeight / 2.0);
    Translate(origin)
      .After(Translate(Point(-naturalWidth / 2.0, -naturalHeight / 2.0)))
      .After(Translate(view.position))
      .After(Scale(view.scale))
      .After(Translate(Point(-origin.x, -origin.y)))
  }

  /** Where the preview shows the image: the transformed corners of the
      element's layout box. */
  function PreviewRect(naturalWidth: real, naturalHeight: real, view: ViewTransform, frame: Frame): (r: Rect)
    ensures r.width == naturalWidth * view.scale && r.height == naturalHeight * view.scale
  {
    var m := PreviewTransform(naturalWidth, naturalHeight, view, frame);
    var topLeft := m.Apply(Point(frame.width / 2.0, frame.height / 2.0));
    var bottomRight := m.Apply(Point(frame.width / 2.0 + naturalWidth, frame.height / 2.0 + naturalHeight));
    Rect(topLeft.x, topLeft.y, bottomRight.x - topLeft.x, bottomRight.y - topLeft.y)
  }

  /** The preview centres the image at the frame centre plus `position`, at
      `scale` times its natural size. */
  lemma PreviewIsCentred(naturalWidth: real, naturalHeight: real, view: ViewTransform, frame: Frame)
    ensures var r := PreviewRect(naturalWidth, naturalHeight, view, frame);
      && r.Center() == Point(frame.width / 2.0, frame.height / 2.0).Plus(view.position)
      && r.width == naturalWidth * view.scale
      && r.height == naturalHeight * view.scale
  {
    var m := PreviewTransform(naturalWidth, naturalHeight, view, frame);
    var a := Point(frame.width / 2.0, frame.height / 2.0);
    var c := Point(a.x + naturalWidth / 2.0, a.y + naturalHeight / 2.0);
    var r := PreviewRect(naturalWidth, naturalHeight, view, frame);
    assert m.k * (a.x + naturalWidth) == m.k * a.x + m.k * naturalWidth;
    assert m.k * (a.y + naturalHeight) == m.k * a.y + m.k * naturalHeight;
    assert m.k * c.x == m.k * a.x + m.k * naturalWidth / 2.0;
    assert m.k * c.y == m.k * a.y + m.k * naturalHeight / 2.0;
    assert r.Center() == m.Apply(c);
  }

  // ---------------------------------------------------------------------------
  // Export
  // ---------------------------------------------------------------------------

  /** The number of output pixels per display pixel: the size's pixel height
      over the frame height. */
  function ExportRatio(size: IdPhotoSize): (ratio: real)
    requires ValidSize(size)
    ensures ratio > 0.0
  {
    size.heightPx as real / DisplayDimensions(size).height
  }

  /** The rectangle the download handler passes to `drawImage` on a canvas of
      `widthPx` x `heightPx`: the image centred at the canvas centre plus the
      position converted to output pixels, at natural size times scale times
      the export ratio. */
  function ExportRect(naturalWidth: real, naturalHeight: real, view: ViewTransform, size: IdPhotoSize): (r: Rect)
    requires naturalWidth > 0.0 && naturalHeight > 0.0
    requires view.scale > 0.0
    requires ValidSize(size)
    ensures r.width > 0.0 && r.height > 0.0
  {
    var ratio := ExportRatio(size);
    var cx := size.widthPx as real / 2.0;
    var cy := size.heightPx as real / 2.0;
    var drawWidth := naturalWidth * view.scale * ratio;
    var drawHeight := naturalHeight * view.scale * ratio;
    var offsetX := view.position.x * ratio;
    var offsetY := view.position.y * ratio;
    Rect(cx + offsetX - drawWidth / 2.0, cy + offsetY - drawHeight / 2.0, drawWidth, drawHeight)
  }

  /** One ratio serves both axes: the whole display frame maps onto the whole
      output canvas, because both have the size's aspect ratio. */
  lemma FrameMapsOntoCanvas(size: IdPhotoSize)
    requires ValidSize(size)
    ensures var f := DisplayDimensions(size);
      Rect(0.0, 0.0, f.width, f.height).Scaled(ExportRatio(size))
        == Rect(0.0, 0.0, size.widthPx as real, size.heightPx as real)
  {
    var f := DisplayDimensions(size);
    var ratio := ExportRatio(size);
    assert ratio * BaseHeight == size.heightPx as real;
    calc {
      f.width * ratio;
      f.width * (size.heightPx as real / BaseHeight);
      f.width * size.heightPx as real / BaseHeight;
      BaseHeight * size.widthPx as real / BaseHeight;
      size.widthPx as real;
    }
  }

  /** What you see is what you export: the canvas draw rectangle is the
      on-screen image rectangle, scaled uniformly by the export ratio. */
  lemma ExportMatchesPreview(naturalWidth: real, naturalHeight: real, view: ViewTransform, size: IdPhotoSize)
    requires naturalWidth > 0.0 && naturalHeight > 0.0
    requires view.scale > 0.0
    requires ValidSize(size)
    ensures ExportRect(naturalWidth, naturalHeight, view, size)
      == PreviewRect(naturalWidth, naturalHeight, view, DisplayDimensions(size)).Scaled(ExportRatio(size))
  {
    var f := DisplayDimensions(size);
    var ratio := ExportRatio(size);
    FrameMapsOntoCanvas(size);
    assert f.width * ratio == size.widthPx as real;
    assert f.height * ratio == size.heightPx as real;
    var r := ExportRect(naturalWidth, naturalHeight, view, size);
    var p := PreviewRect(naturalWidth, naturalHeight, view, f);
    PreviewIsCentred(naturalWidth, naturalHeight, view, f);
    var w := naturalWidth * view.scale;
    var h := naturalHeight * view.scale;
    assert p.x == f.width / 2.0 + view.position.x - w / 2.0;
    assert p.y == f.height / 2.0 + view.position.y - h / 2.0;
    assert p.x * ratio == f.width * ratio / 2.0 + view.position.x * ratio - w * ratio / 2.0;
    assert p.y * ratio == f.height * ratio / 2.0 + view.position.y * ratio - h * ratio / 2.0;
  }

  /** A size with every pixel dimension multiplied by `m`. */
  function ScaledSize(size: IdPhotoSize, m: int): IdPhotoSize {
    size.(widthPx := size.widthPx * m, heightPx := size.heightPx * m)
  }

  /** The export is scale-covariant: multiplying the output resolution by `m`
      leaves the preview frame unchanged and multiplies every coordinate of
      the draw rectangle by `m`. */
  lemma ExportScalesWithResolution(naturalWidth: real, naturalHeight: real, view: ViewTransform,
                                   size: IdPhotoSize, m: int)
    requires naturalWidth > 0.0 && naturalHeight > 0.0
    requires view.scale > 0.0
    requires ValidSize(size) && m > 0
    ensures ValidSize(ScaledSize(size, m))
    ensures DisplayDimensions(ScaledSize(size, m)) == DisplayDimensions(size)
    ensures ExportRect(naturalWidth, naturalHeight, view, ScaledSize(size, m))
      == ExportRect(naturalWidth, naturalHeight, view, size).Scaled(m as real)
  {
    var big := ScaledSize(size, m);
    var w := size.widthPx as real;
    var h := size.heightPx as real;
    assert big.widthPx as real == w * m as real;
    assert big.heightPx as real == h * m as real;
    assert Aspect(big) == Aspect(size) by {
      assert (w * m as real) / (h * m as real) == w / h;
    }
    assert ExportRatio(big) == ExportRatio(size) * m as real;
  }

  /** With the auto-fit transform the exported image covers the whole canvas,
      overlapping every edge: no background shows in the download. */
  lemma AutoFitFillsCanvas(naturalWidth: real, naturalHeight: real, size: IdPhotoSize)
    requires naturalWidth > 0.0 && naturalHeight > 0.0
    requires ValidSize(size)
    ensures var r := ExportRect(naturalWidth, naturalHeight, AutoFit(naturalWidth, naturalHeight, size), size);
      && r.x < 0.0 && r.y < 0.0
      && r.x + r.width > size.widthPx as real
      && r.y + r.height > size.heightPx as real
  {
    var v := AutoFit(naturalWidth, naturalHeight, size);
    var f := DisplayDimensions(size);
    var ratio := ExportRatio(size);
    AutoFitIsCoverScale(naturalWidth, naturalHeight, size);
    FrameMapsOntoCanvas(size);
    var r := ExportRect(naturalWidth, naturalHeight, v, size);
    assert r.width == (naturalWidth * v.scale) * ratio;
    assert r.height == (naturalHeight * v.scale) * ratio;
    assert r.width >= CoverMargin * f.width * ratio by {
      MulMonotoneStrict(naturalWidth * v.scale, CoverMargin * f.width, ratio);
    }
    assert r.height >= CoverMargin * f.height * ratio by {
      MulMonotoneStrict(naturalHeight * v.scale, CoverMargin * f.height, ratio);
    }
  }

  /** The one-inch size with an 800 x 1000 image: fitted by height at scale
      0.525, exported at ratio 0.826 to a 346.92 x 433.65 rectangle. */
  lemma WorkedExample()
    ensures AutoFit(800.0, 1000.0, DefaultSize).scale == 0.525
    ensures ExportRatio(DefaultSize) == 0.826
    ensures ExportRect(800.0, 1000.0, AutoFit(800.0, 1000.0, DefaultSize), DefaultSize)
      == Rect(-25.96, -10.325, 346.92, 433.65)
  {
    CatalogShape();
    assert Aspect(DefaultSize) == 295.0 / 413.0;
    assert 800.0 / 1000.0 > 295.0 / 413.0;
  }
}

=== FILE: workspace.dfy ===
/** The preview's pointer interaction (`components/Workspace.tsx`): dragging
    pans the image, a wheel gesture with Ctrl or Meta held zooms it. Each
    event moves the drag state and may emit a new view transform, which the
    editor then adopts as its own. */
module Workspace {
  import opened Common
  import opened Geometry

  /** Not dragging, or dragging with the pointer-to-image offset recorded at
      the press (`dragStart`). */
  datatype DragState = Idle | Dragging(anchor: Point)

  datatype Event =
    | MouseDown(pointer: Point)
    | MouseMove(pointer: Point)
    | MouseUp
    | MouseLeave
    | Wheel(deltaY: real, ctrlKey: bool, metaKey: bool)

  /** The new drag state, and the transform passed to `onUpdate`, if any. */
  datatype StepResult = StepResult(drag: DragState, update: Option<ViewTransform>)

  /** The smallest scale a zoom gesture may produce. */
  const ZoomFloor: real := 0.05

  /** Scale change per unit of wheel `deltaY`; scrolling up (negative) zooms in. */
  const ZoomSensitivity: real := -0.001

  /** The zoom handler's scale: `Math.max(0.05, scale + deltaY * -0.001)`. */
  function Zoomed(scale: real, deltaY: real): (s: real)
    ensures s >= ZoomFloor
    ensures s == ZoomFloor || s == scale + deltaY * ZoomSensitivity
  {
    Max(ZoomFloor, scale + deltaY * ZoomSensitivity)
  }

  /** The four mouse and wheel handlers of the frame; mouse-leave shares the
      mouse-up handler. */
  function Step(drag: DragState, view: ViewTransform, e: Event): (r: StepResult)
    ensures e.MouseDown? ==> r.drag.Dragging? && r.update.None?
    ensures (e.MouseUp? || e.MouseLeave?) ==> r == StepResult(Idle, None)
    ensures e.MouseMove? || e.Wheel? ==> r.drag == drag
    ensures r.update.Some? ==> r.update.value.scale >= ZoomFloor || r.update.value.scale == view.scale
  {
    match e
    case MouseDown(p) => StepResult(Dragging(p.Minus(view.position)), None)
    case MouseMove(p) =>
      if drag.Dragging? then StepResult(drag, Some(ViewTransform(view.scale, p.Minus(drag.anchor))))
      else StepResult(drag, None)
    case MouseUp => StepResult(Idle, None)
    case MouseLeave => StepResult(Idle, None)
    case Wheel(dy, ctrl, meta) =>
      if ctrl || meta then StepResult(drag, Some(ViewTransform(Zoomed(view.scale, dy), view.position)))
      else StepResult(drag, None)
  }

  /** The interaction state of the preview together with the transform the
      editor holds. */
  datatype Session = Session(drag: DragState, view: ViewTransform)

  /** One event, with any emitted transform adopted by the editor. */
  function Handle(s: Session, e: Event): Session {
    var r := Step(s.drag, s.view, e);
    Session(r.drag, r.update.GetOr(s.view))
  }

  /** A sequence of events, handled in order. */
  function Run(s: Session, events: seq<Event>): Session
    decreases |events|
  {
    if events == [] then s else Run(Handle(s, events[0]), events[1..])
  }

  /** A press records the offset between pointer and image, so the image
      stays locked to the pointer: moving back to the press point restores the
      press-time position, and the scale is untouched. */
  lemma PressThenMoveBack(view: ViewTransform, p: Point)
    ensures var s := Run(Session(Idle, view), [MouseDown(p), MouseMove(p)]);
      s.view == view && s.drag.Dragging?
  {
    var s1 := Handle(Session(Idle, view), MouseDown(p));
    assert s1 == Session(Dragging(p.Minus(view.position)), view);
    var s2 := Handle(s1, MouseMove(p));
    assert s2.view == view;
    assert [MouseDown(p), MouseMove(p)][1..] == [MouseMove(p)];
    assert Run(s1, [MouseMove(p)]) == Run(s2, []);
  }

  /** A sequence of pointer moves. */
  function Moves(points: seq<Point>): (es: seq<Event>)
    ensures |es| == |points|
    ensures forall i :: 0 <= i < |points| ==> es[i] == MouseMove(points[i])
  {
    if points == [] then [] else [MouseMove(points[0])] + Moves(points[1..])
  }

  /** While dragging, every move sets the position to pointer minus anchor:
      after any non-empty run of moves the image sits at the last pointer
      minus the anchor, still dragging, at the scale it had. */
  lemma {:induction false} DragFollowsPointer(anchor: Point, view: ViewTransform, points: seq<Point>)
    requires |points| > 0
    ensures Run(Session(Dragging(anchor), view), Moves(points))
      == Session(Dragging(anchor), ViewTransform(view.scale, points[|points| - 1].Minus(anchor)))
    decreases |points|
  {
    var es := Moves(points);
    var s1 := Handle(Session(Dragging(anchor), view), es[0]);
    assert s1 == Session(Dragging(anchor), ViewTransform(view.scale, points[0].Minus(anchor)));
    if |points| == 1 {
      assert es[1..] == [];
    } else {
      assert es[1..] == Moves(points[1..]);
      DragFollowsPointer(anchor, s1.view, points[1..]);
    }
  }

  /** A whole drag gesture translates the image by the pointer's
      displacement: press at `p`, move through `points`, and the image moves
      by the last point minus `p`. */
  lemma DragTranslates(view: ViewTransform, p: Point, points: seq<Point>)
    requires |points| > 0
    ensures var s := Run(Session(Idle, view), [MouseDown(p)] + Moves(points));
      s.view.scale == view.scale
      && s.view.position == view.position.Plus(points[|points| - 1].Minus(p))
  {
    var es := [MouseDown(p)] + Moves(points);
    var s1 := Handle(Session(Idle, view), MouseDown(p));
    assert es[1..] == Moves(points);
    DragFollowsPointer(p.Minus(view.position), s1.view, points);
  }

  /** Pointer moves without a press emit nothing; release and leave both end
      the drag, and any later move is ignored. */
  lemma MoveWithoutPressIsIgnored(view: ViewTransform, p: Point, q: Point, released: Event)
    requires released == MouseUp || released == MouseLeave
    ensures Step(Idle, view, MouseMove(q)).update.None?
    ensures Run(Session(Dragging(p), view), [released, MouseMove(q)]) == Session(Idle, view)
  {
    var s1 := Handle(Session(Dragging(p), view), released);
    assert s1 == Session(Idle, view);
    assert [released, MouseMove(q)][1..] == [MouseMove(q)];
    assert Run(s1, [MouseMove(q)]) == Run(Handle(s1, MouseMove(q)), []);
  }

  /** Wheel events zoom only with Ctrl or Meta held; with a modifier they set
      `scale - 0.001 * deltaY`, clamped to the floor, and keep the position. */
  lemma WheelZoom(drag: DragState, view: ViewTransform, dy: real, ctrl: bool, meta: bool)
    ensures var r := Step(drag, view, Wheel(dy, ctrl, meta));
      && r.drag == drag
      && (r.update.Some? <==> ctrl || meta)
      && (r.update.Some? ==>
            && r.update.value.position == view.position
            && r.update.value.scale == Max(ZoomFloor, view.scale - 0.001 * dy))
  {
  }

  /** Zoom never produces a scale below the floor, and above the floor it is
      exactly linear in the wheel delta. */
  lemma ZoomRespectsFloor(scale: real, dy: real)
    ensures Zoomed(scale, dy) >= ZoomFloor
    ensures scale - 0.001 * dy >= ZoomFloor ==> Zoomed(scale, dy) == scale - 0.001 * dy
    ensures scale - 0.001 * dy < ZoomFloor ==> Zoomed(scale, dy) == ZoomFloor
  {
  }

  /** Whether an event is a modifier-gated zoom. */
  predicate IsZoom(e: Event) {
    e.Wheel? && (e.ctrlKey || e.metaKey)
  }

  /** Once the scale is at or above the floor, no event sequence takes it
      below; and a positive scale stays positive, so the export's
      requirement `scale > 0` holds throughout interaction. */
  lemma {:induction false} RunKeepsScaleBounds(s: Session, events: seq<Event>)
    ensures s.view.scale >= ZoomFloor ==> Run(s, events).view.scale >= ZoomFloor
    ensures s.view.scale > 0.0 ==> Run(s, events).view.scale > 0.0
    decreases |events|
  {
    if events != [] {
      RunKeepsScaleBounds(Handle(s, events[0]), events[1..]);
    }
  }

  /** After any zoom the scale is at least the floor, whatever it was before,
      even when it came from an auto-fit below the floor. */
  lemma {:induction false} ZoomLiftsToFloor(s: Session, events: seq<Event>, i: nat)
    requires i < |events| && IsZoom(events[i])
    ensures Run(s, events).view.scale >= ZoomFloor
    decreases |events|
  {
    if i == 0 {
      RunKeepsScaleBounds(Handle(s, events[0]), events[1..]);
    } else {
      ZoomLiftsToFloor(Handle(s, events[0]), events[1..], i - 1);
    }
  }

  /** Auto-fit is not bound by the zoom floor: a large image fitted into the
      default frame gets a scale below 0.05, which only a later zoom lifts. */
  lemma AutoFitMayUndercutFloor()
    ensures AutoFit(100000.0, 100000.0, Catalog.DefaultSize).scale < ZoomFloor
  {
    Catalog.CatalogShape();
    Geometry.AutoFitIsCoverScale(100000.0, 100000.0, Catalog.DefaultSize);
  }
}
